=== FILE: README.md ===
# SPI-to-OBI slave test program, modelled in Dafny

The x-heep application `example_spi_obi_slave` drives an SPI host to talk to
an SPI slave that bridges to the OBI bus. It writes a buffer into the slave's
memory, reads the same range back, converts the words back to host order and
compares the two. This project models the program's transfer routines:

- the byte-order adapter (`make_word_compatible_for_spi_host`,
  `make_compare_data_compatible`);
- the register programmer (`write_wrap_length`, `write_dummy_cycles`), the
  dummy wait (`spi_host_wait`) and the address phase
  (`write_word_big_endian`);
- the chunked write (`spi_host_write`) and the chunked read
  (`spi_host_read`);
- the macros and op-codes at the top of the file.

The SPI host is modelled as an append-only trace of the driver calls the
program makes:
- pushing a byte or a word into the TX FIFO;
- issuing a command segment with its length field, chip-select-hold flag and
  direction;
- setting the RX watermark;
- popping a word from the RX FIFO.

The readiness and FIFO-level waits are not recorded. The FIFO depths are a
`Config`: TX in words and RX in bytes, with the RX depth a multiple of 4. The
words the device returns on a read are a parameter.

The slave's side of the register protocol is a small interpreter
(`Registers.Apply`). It serves as the reference that the command sequences are
checked against. The round-trip lemmas take the slave to be a loopback: the
read returns the payload words the write left behind, in order. The echo is
word-level: it passes on whole pushed words and ignores how many bytes each
segment declares. The host shifts each pushed word onto the wire lowest byte
first (`ByteOrder.WireOrder`); `Registers.WordBigEndian`'s contract and
`RoundTrip.CorrectedTailLeadsWithPadding` rest on that order.

Modules: `Wire` (types, constants, trace and measures), `Arith` (division
facts), `ByteOrder`, `Registers`, `WriteEngine`, `ReadEngine` and
`RoundTrip`.

## Model

| member | source | states |
|---|---|---|
| Wire.DivRoundUpCovers | sw/applications/example_spi_obi_slave/main.c:18 | DIV_ROUND_UP gives the fewest multiples of the denominator that cover the numerator: `d * r >= n` and `d * r < n + d` |
| Wire.WordsFor | sw/applications/example_spi_obi_slave/main.c:18 | DIV_ROUND_UP by the word size: the fewest words whose bytes cover `length`, i.e. `length / 4` plus one exactly when there is a remainder |
| ByteOrder.MaskBytes | sw/applications/example_spi_obi_slave/main.c:19-22 | LOWER_BYTE_16_BITS is byte 0 and UPPER_BYTE_16_BITS is byte 1 of the argument; LOWER_BYTES_32_BITS keeps bytes 0 and 1 in place; UPPER_BYTES_32_BITS moves bytes 2 and 3 down to bytes 0 and 1; every other byte of each result is 0 |
| ByteOrder.Swap | sw/applications/example_spi_obi_slave/main.c:435-440 | byte `k` of the adapted word is byte `3 - k` of the input, for every `k` |
| ByteOrder.SwapInvolutive | sw/applications/example_spi_obi_slave/main.c:435-440 | applying the adapter twice gives the word back |
| ByteOrder.SwapExample | sw/applications/example_spi_obi_slave/main.c:435-440 | 0x01020304 becomes 0x04030201 |
| ByteOrder.SwapFrom | sw/applications/example_spi_obi_slave/main.c:443-445 | the in-place loop from index `i`: words `i .. n-1` are swapped and every other word is unchanged |
| ByteOrder.MakeCompareDataCompatible | sw/applications/example_spi_obi_slave/main.c:442-446 | exactly the first `length >> 2` words are swapped and every later word is unchanged |
| ByteOrder.CompareDataInvolutive | sw/applications/example_spi_obi_slave/main.c:442-446 | converting a buffer twice restores it |
| ByteOrder.SameBytes | sw/applications/example_spi_obi_slave/main.c:103 | `memcmp(a, b, n) == 0` on the little-endian host: every byte below `n` agrees |
| ByteOrder.SameBytesByWords | sw/applications/example_spi_obi_slave/main.c:103 | comparing `n` bytes holds exactly when the first `n / 4` words are equal and, when `n % 4 != 0`, the low `n % 4` bytes of the next word agree |
| ByteOrder.CopyLowBytes | sw/applications/example_spi_obi_slave/main.c:192 | memcpy of `n` bytes between words on a little-endian host: the `n` lowest-addressed bytes come from the source and the rest of the destination is kept |
| Registers.SendBytes | sw/applications/example_spi_obi_slave/main.c:392-400 | each register byte is pushed and then sent by its own held one-byte transmit segment, in order |
| Registers.WrapLength | sw/applications/example_spi_obi_slave/main.c:377-402 | eight events `[0x20] [lo] [0x30] [hi]`, each byte followed by a held one-byte segment, with `lo + 256 * hi == length >> 2` and `hi <= 0x3F`. The two bytes come from `Registers.LowByte` and `Registers.HighByte`, the integer forms of LOWER_BYTE_16_BITS and UPPER_BYTE_16_BITS (main.c:19-20) |
| Registers.WrapLengthExample | sw/applications/example_spi_obi_slave/main.c:377-402 | a length of 4100 programs the bytes 0x20, 0x01, 0x30, 0x04 |
| Registers.WrapLengthProgramsSlave | sw/applications/example_spi_obi_slave/main.c:377-402 | the slave executing the sequence ends with its wrap-length register pair equal to `length >> 2` and its dummy-cycle register unchanged |
| Registers.DummyCycles | sw/applications/example_spi_obi_slave/main.c:346-375 | op-code 0x11, then the cycle count, each byte followed by a held one-byte segment |
| Registers.DummyCyclesProgramsSlave | sw/applications/example_spi_obi_slave/main.c:346-375 | the slave executing the sequence ends with its dummy-cycle register equal to the count and nothing else changed |
| Registers.HostWait | sw/applications/example_spi_obi_slave/main.c:404-421 | no segment exactly when the count is 0; otherwise one held dummy segment whose length field is the count itself, not the count minus one |
| Registers.WordBigEndian | sw/applications/example_spi_obi_slave/main.c:329-344 | one pushed word whose wire order is the input's bytes 3, 2, 1, 0, then a held 4-byte transmit segment |
| WriteEngine.TxLoop | sw/applications/example_spi_obi_slave/main.c:269-280 | the word counter never exceeds the FIFO depth; it is unchanged by no words and at least 1 after any word |
| WriteEngine.TxLoopPushes | sw/applications/example_spi_obi_slave/main.c:269-280 | the words pushed are the swapped input words, in order; every segment issued is a held full-FIFO segment |
| WriteEngine.TxLoopCounter | sw/applications/example_spi_obi_slave/main.c:269-280 | after `n >= 1` words the counter holds the size of the current FIFO load, `(counter + n - 1) mod depth + 1` |
| WriteEngine.TxLoopFollowsSegments | sw/applications/example_spi_obi_slave/main.c:269-280 | the counter loop produces exactly the reference chunking, where a full segment is sent whenever a word arrives at a full FIFO |
| WriteEngine.LoopTxBytes | sw/applications/example_spi_obi_slave/main.c:257-280 | 0 bytes for no words; for `n >= 1` words the loop declares `4 * depth * ((n - 1) / depth)` bytes, one full load per completed FIFO before the last |
| WriteEngine.LastWords | sw/applications/example_spi_obi_slave/main.c:288-292 | the final segment size lies in `1 .. 4 * depth` |
| WriteEngine.LastWordsValue | sw/applications/example_spi_obi_slave/main.c:288-292 | the final segment size equals `length mod 4*depth` when that is non-zero and `4 * depth` otherwise, so it agrees with `length` modulo `4 * depth` |
| WriteEngine.TailWord | sw/applications/example_spi_obi_slave/main.c:281-283 | the tail word's low `length % 4` bytes are the buffer's bytes from `length - length % 4` on, and its other bytes are 0 |
| WriteEngine.TailWordAsWritten | sw/applications/example_spi_obi_slave/main.c:283 | the word read when the byte offset is used as a word index: its low bytes come from word `length - length % 4`; `None` when that word is outside the buffer |
| WriteEngine.TailWordIndexDiverges | sw/applications/example_spi_obi_slave/main.c:283 | that index is the tail's word exactly when `length < 4`, and lies beyond every word of the transfer from 4 bytes on |
| WriteEngine.TailWordAsWrittenExample | sw/applications/example_spi_obi_slave/main.c:283 | for 5 bytes from a 2-word buffer, the intended tail is 0x04 but the as-written index falls outside the buffer |
| WriteEngine.TxWords | sw/applications/example_spi_obi_slave/main.c:271-286 | the words the write sends, in host order: the first `length >> 2` buffer words, then the tail word when `length % 4 != 0`; `DIV_ROUND_UP(length, 4)` words in all |
| WriteEngine.WritePreamble | sw/applications/example_spi_obi_slave/main.c:236-252 | the preamble pushes exactly the write op-code and the swapped address, and never releases chip select |
| WriteEngine.WriteProgramsSlave | sw/applications/example_spi_obi_slave/main.c:236-241 | the slave holds the length in words before the write op-code is pushed |
| WriteEngine.WritePayload | sw/applications/example_spi_obi_slave/main.c:269-301 | the payload pushes the swapped transfer words (the whole words, then the tail word if any); only its last event, the `last_words` segment, releases chip select |
| WriteEngine.WritePayloadCorrected | sw/applications/example_spi_obi_slave/main.c:269-301 | the same pushes with the tail gated by the counter; no events at all for an empty transfer |
| WriteEngine.SpiHostWrite | sw/applications/example_spi_obi_slave/main.c:231-304 | the size check never fires for a 16-bit length; the trace opens with the whole write preamble (wrap-length programming, op-code, address); the TX FIFO receives the op-code, the swapped address and the swapped transfer words, in order; only the final segment releases chip select |
| WriteEngine.WriteRequestProgramsSlave | sw/applications/example_spi_obi_slave/main.c:231-241 | on the write itself, the first eight events leave the slave's wrap-length registers holding the length in words, and the ninth pushes the write op-code |
| WriteEngine.SpiHostWriteCorrected | sw/applications/example_spi_obi_slave/main.c:231-304 | the corrected write pushes the same words |
| WriteEngine.WriteSegmentBytes | sw/applications/example_spi_obi_slave/main.c:269-298 | bytes declared by the payload's segments: `4 * depth` for length 0, `length - 4 * depth` when `length >= 4 * depth` and `length mod 4*depth` is 1, 2 or 3, and `length` in every other case |
| WriteEngine.WriteSegmentBytesExample | sw/applications/example_spi_obi_slave/main.c:269-298 | with a one-word TX FIFO, a 5-byte write declares 1 byte for 2 pushed words |
| WriteEngine.WriteCorrectedSegmentBytes | sw/applications/example_spi_obi_slave/main.c:288-298 | the corrected payload's segments declare exactly `length` bytes |
| ReadEngine.Drain | sw/applications/example_spi_obi_slave/main.c:163-187 | the watermark loop never increases `length` |
| ReadEngine.DrainSlots | sw/applications/example_spi_obi_slave/main.c:163-187 | the passes fill the slots from `i_start` up to the final `to_read >> 2`, each once and in increasing order |
| ReadEngine.DrainLength | sw/applications/example_spi_obi_slave/main.c:168-177 | the loop leaves `length` at its remainder modulo the RX depth |
| ReadEngine.DrainTrace | sw/applications/example_spi_obi_slave/main.c:168-184 | the loop pops once per slot it fills, and every watermark it sets is at most the RX depth in words |
| ReadEngine.Fill | sw/applications/example_spi_obi_slave/main.c:182-184 | storing each pop into its slot keeps the buffer's size |
| ReadEngine.FillRange | sw/applications/example_spi_obi_slave/main.c:182-184 | popping into consecutive slots stores the popped words in order there and changes no other slot |
| ReadEngine.ReadPreamble | sw/applications/example_spi_obi_slave/main.c:119-153 | everything the read sends before the data arrives pops nothing, sets no watermark, and pushes exactly one word to the TX FIFO: the swapped address |
| ReadEngine.ReadTrace | sw/applications/example_spi_obi_slave/main.c:119-193 | the read's trace opens with the read preamble and, when `length % 4 != 0`, closes with the extra pop of the tail word |
| ReadEngine.CheckAddressValidity | sw/applications/example_spi_obi_slave/main.c:225-228 | the stub accepts every request |
| ReadEngine.ReadBuffer | sw/applications/example_spi_obi_slave/main.c:163-193 | the buffer the read leaves has the destination's size |
| ReadEngine.ReadTransfer | sw/applications/example_spi_obi_slave/main.c:114-196 | the read always succeeds, since the address check accepts everything, and leaves a buffer of the destination's size |
| ReadEngine.SpiHostRead | sw/applications/example_spi_obi_slave/main.c:114-196 | the program's read succeeds and keeps the buffer's size |
| ReadEngine.SpiHostReadCorrected | sw/applications/example_spi_obi_slave/main.c:114-196 | the corrected read succeeds and keeps the buffer's size |
| ReadEngine.ReadTransferBuffer | sw/applications/example_spi_obi_slave/main.c:163-193 | popped word `i` lands in slot `i` for every whole word; the tail slot receives the low `length % 4` bytes of the next popped word; every later slot is untouched |
| ReadEngine.ReadWritesExactlyLength | sw/applications/example_spi_obi_slave/main.c:163-193 | the buffer's first `length` bytes are the popped words' bytes, and no byte at or after `length` changes |
| ReadEngine.ReadTracePops | sw/applications/example_spi_obi_slave/main.c:163-193 | the read's trace pops `DIV_ROUND_UP(length, 4)` words in all and sets only watermarks within the RX FIFO's depth in words |
| ReadEngine.ReadTraceCounts | sw/applications/example_spi_obi_slave/main.c:163-193 | the read pops exactly `ceil(length / 4)` words and never sets a watermark above the RX depth in words |
| ReadEngine.ReadProgramsSlave | sw/applications/example_spi_obi_slave/main.c:119-153 | before the read op-code the slave holds the dummy-cycle count and the length in words; the op-code goes out in its own held one-byte segment and is followed by the address phase of `write_word_big_endian`; the dummy wait declares that cycle count; the last preamble segment receives `length` bytes and releases chip select |
| RoundTrip.LoopbackPasses | sw/applications/example_spi_obi_slave/main.c:89-105 | `main`'s write, read, convert and `memcmp` sequence under the loopback slave, true when the comparison reports equal |
| RoundTrip.WriteEchoes | sw/applications/example_spi_obi_slave/main.c:89-95 | the loopback slave holds the swapped transfer words after either write |
| RoundTrip.RoundTripWholeWords | sw/applications/example_spi_obi_slave/main.c:89-105 | when `length % 4 == 0`, write, read, convert and compare succeeds, and the destination's later words are untouched |
| RoundTrip.RoundTripCorrected | sw/applications/example_spi_obi_slave/main.c:89-105 | with the corrected write and read the comparison succeeds for every length, and no destination byte at or after `length` changes |
| RoundTrip.CorrectedTailLeadsWithPadding | sw/applications/example_spi_obi_slave/main.c:281-298 | shifted lowest byte first, the first wire byte of the swapped tail word is always a zero padding byte, so a final segment of `length % 4` bytes does not carry the tail's data |
| RoundTrip.TailReadsBackZero | sw/applications/example_spi_obi_slave/main.c:188-193 | as written, when the length has a tail the first tail byte after conversion is always 0 |
| RoundTrip.TailRoundTripFails | sw/applications/example_spi_obi_slave/main.c:189-192 | as written, under a loopback slave, every transfer with a tail whose first byte is non-zero fails the program's own comparison |
| RoundTrip.TailRoundTripFailsExample | sw/applications/example_spi_obi_slave/main.c:189-192 | as written, a one-byte transfer of 0xAB fails the program's own comparison |
| RoundTrip.SixteenByteScenario | sw/applications/example_spi_obi_slave/main.c:89-105 | an example put through `main`'s sequence: the 16-byte buffer 0x00010203 .. 0x0C0D0E0F, written at any address and read back from it with `DUMMY_CYCLES` (0x20), compares equal. The program's `test_data` is defined in `buffer.h`, which is not part of this model, and `main` writes to the address of `compare_data` |

## Left out

- `main`'s control flow, exit codes and messages, `spi_host_init`, `configure_spi` and `print_array`: process set-up and output, with no data path.
- The SPI host driver's primitives and the readiness, TX-not-full and RX-watermark waits. They belong to a driver that is not part of this model, so each data or segment call is one trace event and the waits are dropped. A device that never becomes ready hangs the program; the model does not express time.
- `check_address_validity` is a stub that accepts everything. The model keeps its `false` branch in `ReadEngine.ReadTransfer`, but that branch cannot be taken.
- The bit widths of the command fields are defined in the driver. `Cmd.len` keeps the program's integer value, so a zero-length read declares `-1`.
- Wrap-around of the program's `uint16_t` counters is not modelled. `Config.Valid` bounds the FIFO depths so that every 16-bit quantity the program derives stays exact.
- The size check in `spi_host_write` is kept as a branch. No 16-bit length can reach it, and `WriteEngine.SpiHostWrite` states that the result is always `Ok`.
- WriteEngine.WritePayload: does not model the TX FIFO overflowing, or the program stalling, when the ungated tail push meets a full FIFO. It records the push and the segment lengths only.
- The host's byte order is taken to be little-endian for `memcpy` and `memcmp` (`ByteOrder.ByteAt`), as on the RISC-V core the program targets.
- The slave's memory is a loopback of the words written. The OBI bus, the slave's address decoding and the effect of the wrap-length register on addressing are not modelled.
- RoundTrip.RoundTripCorrected: holds only for the word-level loopback echo. It ignores the byte counts the segments declare, and drops the first two pushed words (op-code and address) whole. With the lowest-byte-first shift order, the corrected write's final partial segment carries padding before the tail's data (`RoundTrip.CorrectedTailLeadsWithPadding`). Swapping the tail back on read is therefore not enough on a byte-accurate link.
- WriteEngine.SpiHostWrite: pushes the intended tail word (`WriteEngine.TailWord`), not the word main.c:283 reads. The as-written word is `WriteEngine.TailWordAsWritten`, and the first Findings row records the difference.
- The write op-code is pushed with `spi_write_word` (main.c:241) under a one-byte segment, while the read op-code uses `spi_write_byte` (main.c:134). `WriteEngine.WritePreamble` records it as a pushed word with value 2. Which of its four bytes the one-byte segment sends depends on the host's shift order and is not modelled further.
- The error flags other than OK (main.c:33-60) are not modelled by value. Only `AddressInvalid` and `SizeOfDataExceeded` appear, on the branches that cannot be taken.
- `compare_data` is declared with `DATA_LENGTH/4` words (main.c:63). When `DATA_LENGTH % 4 != 0`, the tail `memcpy` of the read (main.c:192) writes one word past the array, and the `memcmp` (main.c:103) reads past it. The model's read requires a destination of `DIV_ROUND_UP(length, 4)` words, so `main`'s own call with such a length is outside the model. The round-trip lemmas speak about a destination large enough for the tail.
- `test_data` and `DATA_LENGTH` come from `buffer.h`, which is not part of this model. The round-trip lemmas take the data and its length as parameters.
- The memory-allocator variant of the program lives in another file and is not part of this model.

## Findings

`main` compares the first `DATA_LENGTH` bytes of the two buffers with
`memcmp` (main.c:101-103). When `DATA_LENGTH` is not a multiple of 4, the
model predicts that this comparison fails under a loopback slave whenever
the first tail byte is non-zero (`RoundTrip.TailRoundTripFails`, third
row). A tail whose first byte is 0 can still compare equal. For such
lengths `main`'s own call is outside the model: see the `compare_data` line
under "## Left out".

| source | as written | input that shows it | evidently intended | confidence | as-written member | corrected member |
|---|---|---|---|---|---|---|
| sw/applications/example_spi_obi_slave/main.c:283 | `&data[length - length % 4]` on a `uint32_t *` treats a byte offset as a word index | length 5 with a 2-word buffer: the index is 4, outside the buffer, where the tail lives in word 1 | copy the low `length % 4` bytes of word `length >> 2` | high, not executed | WriteEngine.TailWordAsWritten | WriteEngine.TailWord |
| sw/applications/example_spi_obi_slave/main.c:281-298 | the tail push is not gated by the TX counter, and `last_words` is `4 * depth` for length 0 | one-word TX FIFO, length 5: two words are pushed but segments declare 1 byte; length 0 declares `4 * depth` bytes with nothing pushed | segments declare exactly `length` bytes | high, not executed | WriteEngine.WriteSegmentBytes | WriteEngine.WriteCorrectedSegmentBytes |
| sw/applications/example_spi_obi_slave/main.c:189-192 | the tail copies the low bytes of the popped word, which is still in wire order | one-byte transfer of 0xAB through a loopback slave: the byte reads back as 0 | convert the popped tail word back to host order before copying its bytes (the fix is proved only for the word-level echo; see `RoundTrip.CorrectedTailLeadsWithPadding`) | low (depends on how the slave orders bytes it returns), not executed | RoundTrip.TailRoundTripFails | RoundTrip.RoundTripCorrected |

=== FILE: arith.dfy ===
/** Facts about Euclidean division on naturals that the FIFO chunking proofs
    rely on. */
module Arith {

  /** Quotient and remainder are determined by any decomposition `a == d*q + r`
      with `0 <= r < d`. */
  lemma DivModUnique(a: int, d: int, q: int, r: int)
    requires d > 0 && 0 <= r < d && a == d * q + r
    ensures a / d == q && a % d == r
  {
    var q' := a / d;
    if q' < q {
      MulAtLeast(d, q - q');
    } else if q' > q {
      MulAtLeast(d, q' - q);
    }
  }

  lemma MulAtLeast(d: int, k: int)
    requires d > 0 && k >= 1
    ensures d * k >= d
  {
  }

  /** Removing one whole divisor lowers the quotient by one and keeps the remainder. */
  lemma DivSubDivisor(a: int, d: int)
    requires d > 0 && a >= d
    ensures (a - d) / d == a / d - 1 && (a - d) % d == a % d
  {
    DivModUnique(a - d, d, a / d - 1, a % d);
  }

  /** A multiple of 4 as divisor preserves the remainder modulo 4. */
  lemma ModOfModMultipleOf4(a: nat, m: nat)
    requires m > 0 && m % 4 == 0
    ensures (a % m) % 4 == a % 4
  {
    var q, s := a / m, a % m;
    var k := m / 4;
    assert m == 4 * k;
    assert a == m * q + s;
    assert a == 4 * (k * q + s / 4) + s % 4 by {
      assert m * q == 4 * (k * q);
      assert s == 4 * (s / 4) + s % 4;
    }
    DivModUnique(a, 4, k * q + s / 4, s % 4);
  }

  /** Taking the divisor away keeps the remainder. */
  lemma ModSubDivisor(a: int, d: int, r: int)
    requires d > 0 && a >= d && r == (a - d) % d
    ensures r == a % d
  {
    DivSubDivisor(a, d);
  }

  /** A number below the divisor is its own remainder. */
  lemma ModBelowDivisor(a: int, d: int)
    requires 0 <= a < d
    ensures a % d == a
  {
    DivModUnique(a, d, 0, a);
  }
}

=== FILE: byte_order.dfy ===
/** The endianness adapter: the 32-bit byte reversal the program applies to
    every word it sends or compares, and the little-endian view of the host's
    word buffers that `memcpy` and `memcmp` work on. */
module ByteOrder {

  /** Byte `k` of a word, counting from the least significant one. */
  function ByteOf(w: bv32, k: nat): bv32
    requires k < 4
  {
    if k == 0 then w & 0xFF
    else if k == 1 then (w >> 8) & 0xFF
    else if k == 2 then (w >> 16) & 0xFF
    else w >> 24
  }

  /** The four masking macros, on 32-bit values. */
  function LowerByte16(x: bv32): bv32 { x & 0xFF }
  function UpperByte16(x: bv32): bv32 { (x & 0xFF00) >> 8 }
  function LowerBytes32(x: bv32): bv32 { x & 0xFFFF }
  function UpperBytes32(x: bv32): bv32 { (x & 0xFFFF_0000) >> 16 }

  /** What the masks pick: LOWER_BYTE_16_BITS and UPPER_BYTE_16_BITS give
      byte 0 and byte 1; LOWER_BYTES_32_BITS keeps bytes 0 and 1 in place;
      UPPER_BYTES_32_BITS moves bytes 2 and 3 down to bytes 0 and 1. Every
      other byte of a result is 0. */
  lemma MaskBytes(x: bv32)
    ensures LowerByte16(x) == ByteOf(x, 0) && UpperByte16(x) == ByteOf(x, 1)
    ensures ByteOf(LowerBytes32(x), 0) == ByteOf(x, 0) && ByteOf(LowerBytes32(x), 1) == ByteOf(x, 1)
    ensures ByteOf(LowerBytes32(x), 2) == 0 && ByteOf(LowerBytes32(x), 3) == 0
    ensures ByteOf(UpperBytes32(x), 0) == ByteOf(x, 2) && ByteOf(UpperBytes32(x), 1) == ByteOf(x, 3)
    ensures ByteOf(UpperBytes32(x), 2) == 0 && ByteOf(UpperBytes32(x), 3) == 0
  {
  }

  /** Two words are equal when all four of their bytes are. */
  lemma WordFromBytes(a: bv32, b: bv32)
    requires forall k :: 0 <= k < 4 ==> ByteOf(a, k) == ByteOf(b, k)
    ensures a == b
  {
    assert ByteOf(a, 0) == ByteOf(b, 0) && ByteOf(a, 1) == ByteOf(b, 1);
    assert ByteOf(a, 2) == ByteOf(b, 2) && ByteOf(a, 3) == ByteOf(b, 3);
  }

  /** make_word_compatible_for_spi_host, built from the macros as the program
      builds it: a full reversal of the four bytes. */
  function Swap(w: bv32): (r: bv32)
    ensures forall k :: 0 <= k < 4 ==> ByteOf(r, k) == ByteOf(w, 3 - k)
  {
    (LowerByte16(LowerBytes32(w)) << 24)
    | (UpperByte16(LowerBytes32(w)) << 16)
    | (LowerByte16(UpperBytes32(w)) << 8)
    | UpperByte16(UpperBytes32(w))
  }

  /** Swapping twice gives the word back: the same adapter converts to wire
      order and back. */
  lemma SwapInvolutive(w: bv32)
    ensures Swap(Swap(w)) == w
  {
    var r := Swap(Swap(w));
    forall k | 0 <= k < 4
      ensures ByteOf(r, k) == ByteOf(w, k)
    {
      assert ByteOf(r, k) == ByteOf(Swap(w), 3 - k);
    }
    WordFromBytes(r, w);
  }

  lemma SwapExample()
    ensures Swap(0x0102_0304) == 0x0403_0201
  {
  }

  /** Bytes of a word in the order the host shifts them onto the wire, lowest
      first (the host's default byte order). */
  function WireOrder(w: bv32): seq<bv32>
  {
    [ByteOf(w, 0), ByteOf(w, 1), ByteOf(w, 2), ByteOf(w, 3)]
  }

  /** Swap applied to every word of a sequence. */
  function SwapAll(ws: seq<bv32>): (r: seq<bv32>)
    ensures |r| == |ws|
    ensures forall i :: 0 <= i < |ws| ==> r[i] == Swap(ws[i])
  {
    if |ws| == 0 then [] else [Swap(ws[0])] + SwapAll(ws[1..])
  }

  /** The loop of make_compare_data_compatible from index `i` on: the words
      at `i .. n-1` are swapped in place. */
  function SwapFrom(buf: seq<bv32>, i: nat, n: nat): (r: seq<bv32>)
    requires i <= n <= |buf|
    ensures |r| == |buf|
    ensures forall j :: 0 <= j < |buf| ==> r[j] == (if i <= j < n then Swap(buf[j]) else buf[j])
    decreases n - i
  {
    if i == n then buf else SwapFrom(buf[i := Swap(buf[i])], i + 1, n)
  }

  /** make_compare_data_compatible: converts the first `length / 4` words of
      a buffer back to host order and leaves every later word alone. */
  function MakeCompareDataCompatible(buf: seq<bv32>, length: nat): (r: seq<bv32>)
    requires length / 4 <= |buf|
    ensures |r| == |buf|
    ensures forall j :: 0 <= j < length / 4 ==> r[j] == Swap(buf[j])
    ensures forall j :: length / 4 <= j < |buf| ==> r[j] == buf[j]
  {
    SwapFrom(buf, 0, length / 4)
  }

  /** Converting a buffer twice restores it. */
  lemma CompareDataInvolutive(buf: seq<bv32>, length: nat)
    requires length / 4 <= |buf|
    ensures MakeCompareDataCompatible(MakeCompareDataCompatible(buf, length), length) == buf
  {
    var once := MakeCompareDataCompatible(buf, length);
    var twice := MakeCompareDataCompatible(once, length);
    forall j | 0 <= j < |buf|
      ensures twice[j] == buf[j]
    {
      if j < length / 4 {
        SwapInvolutive(buf[j]);
      }
    }
  }

  /** Byte `p` of a word buffer as the little-endian host lays it out in
      memory. */
  function ByteAt(buf: seq<bv32>, p: nat): bv32
    requires p < 4 * |buf|
  {
    ByteOf(buf[p / 4], p % 4)
  }

  /** `memcmp(a, b, n) == 0`: the first `n` bytes of two buffers agree. */
  predicate SameBytes(a: seq<bv32>, b: seq<bv32>, n: nat)
    requires n <= 4 * |a| && n <= 4 * |b|
  {
    forall p :: 0 <= p < n ==> ByteAt(a, p) == ByteAt(b, p)
  }

  /** Comparing `n` bytes compares the first `n / 4` words whole and then
      the low `n % 4` bytes of the next word. */
  lemma SameBytesByWords(a: seq<bv32>, b: seq<bv32>, n: nat)
    requires n <= 4 * |a| && n <= 4 * |b|
    ensures SameBytes(a, b, n) <==>
      && (forall i :: 0 <= i < n / 4 ==> a[i] == b[i])
      && (n % 4 != 0 ==> forall k :: 0 <= k < n % 4 ==> ByteOf(a[n / 4], k) == ByteOf(b[n / 4], k))
  {
    if SameBytes(a, b, n) {
      forall i | 0 <= i < n / 4
        ensures a[i] == b[i]
      {
        forall k | 0 <= k < 4
          ensures ByteOf(a[i], k) == ByteOf(b[i], k)
        {
          assert ByteAt(a, 4 * i + k) == ByteAt(b, 4 * i + k);
        }
        WordFromBytes(a[i], b[i]);
      }
      if n % 4 != 0 {
        forall k | 0 <= k < n % 4
          ensures ByteOf(a[n / 4], k) == ByteOf(b[n / 4], k)
        {
          assert ByteAt(a, 4 * (n / 4) + k) == ByteAt(b, 4 * (n / 4) + k);
        }
      }
    }
  }

  /** `memcpy(&dst, &src, n)` between two words: the `n` lowest-addressed
      bytes come from `src`, the rest stay as in `dst`. */
  function CopyLowBytes(dst: bv32, src: bv32, n: nat): (r: bv32)
    requires n <= 4
    ensures forall k :: 0 <= k < 4 ==> ByteOf(r, k) == (if k < n then ByteOf(src, k) else ByteOf(dst, k))
  {
    if n == 0 then dst
    else if n == 1 then (dst & 0xFFFF_FF00) | (src & 0xFF)
    else if n == 2 then (dst & 0xFFFF_0000) | (src & 0xFFFF)
    else if n == 3 then (dst & 0xFF00_0000) | (src & 0xFF_FFFF)
    else src
  }
}

=== FILE: read_engine.dfy ===
/** The chunked read engine (spi_host_read): dummy-cycle and wrap-length
    programming, op-code, big-endian address, dummy wait and one receive
    segment for the whole length; then a watermark loop that drains whole
    words from the RX FIFO in bursts of at most `rxDepth` bytes, and a final
    pop whose low `length % 4` bytes complete the buffer. The words the device
    returns are the parameter `rx`, one per pop, in order. */
module ReadEngine {
  import opened Wire
  import opened ByteOrder
  import opened Registers
  import Arith

  /** The slot indices `lo .. hi-1`, in increasing order. */
  function Range(lo: nat, hi: nat): (r: seq<nat>)
    ensures |r| == if lo <= hi then hi - lo else 0
    ensures forall k :: 0 <= k < |r| ==> r[k] == lo + k
    decreases hi - lo
  {
    if lo >= hi then [] else [lo] + Range(lo + 1, hi)
  }

  /** `s` lists the slots `lo .. hi-1`, in increasing order. */
  predicate IsRange(s: seq<nat>, lo: nat, hi: nat)
  {
    lo <= hi && |s| == hi - lo && forall k :: 0 <= k < |s| ==> s[k] == lo + k
  }

  /** `n` pops from the RX FIFO. */
  function Pops(n: nat): (t: Trace)
    ensures |t| == n && PopCount(t) == n
    ensures forall e :: e in t ==> e == PopWord
  {
    if n == 0 then [] else [PopWord] + Pops(n - 1)
  }

  /** What the watermark loop leaves behind: its trace, the buffer slot each
      pop went to (in pop order), and the final value of `length`. */
  datatype Drained = Drained(trace: Trace, slots: seq<nat>, length: nat)

  /** The watermark loop, from the pass whose state is `length` (bytes not
      yet waited for), `toRead` (bytes waited for so far) and `iStart` (first
      slot of the pass). A pass waits for a full RX FIFO while at least
      `rxDepth` bytes remain, otherwise for the rest rounded up to words and
      stops; then it pops one word into each slot from `iStart` up to
      `toRead >> 2`. What the loop promises is stated by `DrainSlots`,
      `DrainLength` and `DrainTrace`. */
  function Drain(cfg: Config, length: nat, toRead: nat, iStart: nat): (r: Drained)
    requires cfg.Valid()
    requires toRead % 4 == 0 && iStart == toRead / 4
    ensures r.length <= length
    decreases length
  {
    if length >= cfg.rxDepth then
      var toRead' := toRead + cfg.rxDepth;
      DrainStepArith(cfg, length, toRead);
      var rest := Drain(cfg, length - cfg.rxDepth, toRead', toRead' / 4);
      Drained(Pass(cfg.rxDepth / 4, iStart, toRead' / 4) + rest.trace, Range(iStart, toRead' / 4) + rest.slots, rest.length)
    else
      var mark := if length % 4 == 0 then length / 4 else length / 4 + 1;
      Drained(Pass(mark, iStart, (toRead + length) / 4), Range(iStart, (toRead + length) / 4), length)
  }

  /** The loop pops once per slot it fills, and sets only watermarks of at
      most the RX FIFO's depth in words. */
  lemma {:induction false} DrainTrace(cfg: Config, length: nat, toRead: nat, iStart: nat)
    requires cfg.Valid()
    requires toRead % 4 == 0 && iStart == toRead / 4
    ensures var d := Drain(cfg, length, toRead, iStart);
      && PopCount(d.trace) == |d.slots|
      && forall e :: e in d.trace ==> e == PopWord || (e.SetRxWatermark? && e.words <= cfg.rxDepth / 4)
    decreases length
  {
    if length >= cfg.rxDepth {
      var toRead' := toRead + cfg.rxDepth;
      DrainStepArith(cfg, length, toRead);
      DrainTrace(cfg, length - cfg.rxDepth, toRead', toRead' / 4);
      DrainTraceStep(cfg, length, toRead, iStart);
    } else {
      var mark := if length % 4 == 0 then length / 4 else length / 4 + 1;
      DrainLast(cfg, length, toRead, iStart);
      PassTrace(mark, iStart, (toRead + length) / 4);
      assert mark <= cfg.rxDepth / 4;
    }
  }

  /** A full pass in front of later passes that pop once per slot and set
      only small watermarks. */
  lemma DrainTraceStep(cfg: Config, length: nat, toRead: nat, iStart: nat)
    requires cfg.Valid() && length >= cfg.rxDepth
    requires toRead % 4 == 0 && iStart == toRead / 4 && (toRead + cfg.rxDepth) % 4 == 0
    requires var toRead' := toRead + cfg.rxDepth;
      var rest := Drain(cfg, length - cfg.rxDepth, toRead', toRead' / 4);
      && PopCount(rest.trace) == |rest.slots|
      && forall e :: e in rest.trace ==> e == PopWord || (e.SetRxWatermark? && e.words <= cfg.rxDepth / 4)
    ensures var d := Drain(cfg, length, toRead, iStart);
      && PopCount(d.trace) == |d.slots|
      && forall e :: e in d.trace ==> e == PopWord || (e.SetRxWatermark? && e.words <= cfg.rxDepth / 4)
  {
    var toRead' := toRead + cfg.rxDepth;
    var d := Drain(cfg, length, toRead, iStart);
    var rest := Drain(cfg, length - cfg.rxDepth, toRead', toRead' / 4);
    var pass := Pass(cfg.rxDepth / 4, iStart, toRead' / 4);
    DrainUnfold(cfg, length, toRead, iStart);
    PassTrace(cfg.rxDepth / 4, iStart, toRead' / 4);
    JoinPasses(pass, Range(iStart, toRead' / 4), rest, cfg.rxDepth / 4);
  }

  /** A pass that pops once per slot, in front of a drain that does too,
      gives a drain that pops once per slot; the watermark bound carries over. */
  lemma JoinPasses(pass: Trace, slots: seq<nat>, rest: Drained, bound: nat)
    requires PopCount(pass) == |slots|
    requires forall e :: e in pass ==> e == PopWord || (e.SetRxWatermark? && e.words <= bound)
    requires PopCount(rest.trace) == |rest.slots|
    requires forall e :: e in rest.trace ==> e == PopWord || (e.SetRxWatermark? && e.words <= bound)
    ensures var d := Drained(pass + rest.trace, slots + rest.slots, rest.length);
      && PopCount(d.trace) == |d.slots|
      && forall e :: e in d.trace ==> e == PopWord || (e.SetRxWatermark? && e.words <= bound)
  {
    PopCountConcat(pass, rest.trace);
  }

  /** The passes fill every slot from `iStart` up to `hi`, the byte count
      `toRead + length` in words, once and in increasing order. */
  lemma {:induction false} DrainSlots(cfg: Config, length: nat, toRead: nat, iStart: nat, hi: nat)
    requires cfg.Valid()
    requires toRead % 4 == 0 && iStart == toRead / 4 && hi == (toRead + length) / 4
    ensures IsRange(Drain(cfg, length, toRead, iStart).slots, iStart, hi)
    decreases length
  {
    if length >= cfg.rxDepth {
      var toRead' := toRead + cfg.rxDepth;
      DrainStepArith(cfg, length, toRead);
      DrainSlots(cfg, length - cfg.rxDepth, toRead', toRead' / 4, hi);
      DrainSlotsStep(cfg, length, toRead, iStart, hi);
    } else {
      DrainLast(cfg, length, toRead, iStart);
    }
  }

  /** A full pass fills the slots in front of the ones the later passes
      fill. */
  lemma DrainSlotsStep(cfg: Config, length: nat, toRead: nat, iStart: nat, hi: nat)
    requires cfg.Valid() && length >= cfg.rxDepth
    requires toRead % 4 == 0 && iStart == toRead / 4 && hi == (toRead + length) / 4
    requires (toRead + cfg.rxDepth) % 4 == 0
    requires var toRead' := toRead + cfg.rxDepth;
      IsRange(Drain(cfg, length - cfg.rxDepth, toRead', toRead' / 4).slots, toRead' / 4, hi)
    ensures IsRange(Drain(cfg, length, toRead, iStart).slots, iStart, hi)
  {
    var toRead' := toRead + cfg.rxDepth;
    DrainStepArith(cfg, length, toRead);
    DrainUnfold(cfg, length, toRead, iStart);
    var rest := Drain(cfg, length - cfg.rxDepth, toRead', toRead' / 4);
    RangeStep(Drain(cfg, length, toRead, iStart), Pass(cfg.rxDepth / 4, iStart, toRead' / 4) + rest.trace,
              rest.slots, rest.length, iStart, toRead' / 4, hi);
  }

  /** Slots `a .. b-1` in front of slots `b .. c-1` are slots `a .. c-1`. */
  lemma RangeStep(d: Drained, trace: Trace, rest: seq<nat>, length: nat, a: nat, b: nat, c: nat)
    requires a <= b && IsRange(rest, b, c) && d == Drained(trace, Range(a, b) + rest, length)
    ensures IsRange(d.slots, a, c)
  {
    forall k | 0 <= k < |d.slots|
      ensures d.slots[k] == a + k
    {
      if k >= b - a {
        assert d.slots[k] == rest[k - (b - a)];
      }
    }
  }

  /** One full pass of the loop, in front of the passes that follow it. */
  lemma DrainUnfold(cfg: Config, length: nat, toRead: nat, iStart: nat)
    requires cfg.Valid() && length >= cfg.rxDepth
    requires toRead % 4 == 0 && iStart == toRead / 4 && (toRead + cfg.rxDepth) % 4 == 0
    ensures var toRead' := toRead + cfg.rxDepth;
      var rest := Drain(cfg, length - cfg.rxDepth, toRead', toRead' / 4);
      Drain(cfg, length, toRead, iStart)
        == Drained(Pass(cfg.rxDepth / 4, iStart, toRead' / 4) + rest.trace,
                   Range(iStart, toRead' / 4) + rest.slots, rest.length)
  {
  }

  /** The last pass of the loop, for less than one full RX FIFO. */
  lemma DrainLast(cfg: Config, length: nat, toRead: nat, iStart: nat)
    requires cfg.Valid() && length < cfg.rxDepth
    requires toRead % 4 == 0 && iStart == toRead / 4
    ensures var mark := if length % 4 == 0 then length / 4 else length / 4 + 1;
      var hi := (toRead + length) / 4;
      Drain(cfg, length, toRead, iStart) == Drained(Pass(mark, iStart, hi), Range(iStart, hi), length)
  {
  }

  /** One pass of the loop: the watermark, then a pop for each slot from
      `lo` up to `hi`. */
  function Pass(mark: nat, lo: nat, hi: nat): (t: Trace)
  {
    [SetRxWatermark(mark)] + Pops(|Range(lo, hi)|)
  }

  /** A pass pops once per slot and sets only its own watermark. */
  lemma PassTrace(mark: nat, lo: nat, hi: nat)
    ensures PopCount(Pass(mark, lo, hi)) == |Range(lo, hi)|
    ensures forall e :: e in Pass(mark, lo, hi) ==> e == SetRxWatermark(mark) || e == PopWord
  {
    PopCountConcat([SetRxWatermark(mark)], Pops(|Range(lo, hi)|));
  }

  /** A full pass advances `toRead` by the FIFO depth, which is a whole
      number of words, and leaves the same remainder of `length`. */
  lemma DrainStepArith(cfg: Config, length: nat, toRead: nat)
    requires cfg.Valid() && toRead % 4 == 0 && length >= cfg.rxDepth
    ensures (toRead + cfg.rxDepth) % 4 == 0
    ensures (toRead + cfg.rxDepth) / 4 == toRead / 4 + cfg.rxDepth / 4
    ensures toRead / 4 <= (toRead + cfg.rxDepth) / 4 <= (toRead + length) / 4
  {
  }

  /** The loop leaves in `length` the remainder of the original length
      modulo the RX FIFO depth. */
  lemma {:induction false} DrainLength(cfg: Config, length: nat, toRead: nat, iStart: nat)
    requires cfg.Valid()
    requires toRead % 4 == 0 && iStart == toRead / 4
    ensures Drain(cfg, length, toRead, iStart).length == length % cfg.rxDepth
    decreases length
  {
    if length >= cfg.rxDepth {
      var toRead' := toRead + cfg.rxDepth;
      DrainStepArith(cfg, length, toRead);
      DrainLength(cfg, length - cfg.rxDepth, toRead', toRead' / 4);
      DrainLengthStep(cfg, length, toRead, iStart);
    } else {
      DrainLast(cfg, length, toRead, iStart);
      Arith.ModBelowDivisor(length, cfg.rxDepth);
    }
  }

  /** A full pass leaves `length` to the later passes unchanged modulo the
      depth. */
  lemma DrainLengthStep(cfg: Config, length: nat, toRead: nat, iStart: nat)
    requires cfg.Valid() && length >= cfg.rxDepth
    requires toRead % 4 == 0 && iStart == toRead / 4 && (toRead + cfg.rxDepth) % 4 == 0
    requires var toRead' := toRead + cfg.rxDepth;
      Drain(cfg, length - cfg.rxDepth, toRead', toRead' / 4).length == (length - cfg.rxDepth) % cfg.rxDepth
    ensures Drain(cfg, length, toRead, iStart).length == length % cfg.rxDepth
  {
    var toRead' := toRead + cfg.rxDepth;
    DrainUnfold(cfg, length, toRead, iStart);
    Arith.ModSubDivisor(length, cfg.rxDepth, Drain(cfg, length - cfg.rxDepth, toRead', toRead' / 4).length);
  }

  /** The pops of the loop, each storing its word into its slot. */
  function Fill(dest: seq<bv32>, slots: seq<nat>, rx: seq<bv32>): (r: seq<bv32>)
    requires |slots| <= |rx|
    requires forall k :: 0 <= k < |slots| ==> slots[k] < |dest|
    ensures |r| == |dest|
    decreases |slots|
  {
    if |slots| == 0 then dest else Fill(dest[slots[0] := rx[0]], slots[1..], rx[1..])
  }

  /** Popping into consecutive slots stores the words in order there and
      changes nothing else. */
  lemma {:induction false} FillRange(dest: seq<bv32>, slots: seq<nat>, lo: nat, hi: nat, rx: seq<bv32>)
    requires IsRange(slots, lo, hi) && hi <= |dest| && hi - lo <= |rx|
    ensures forall k :: 0 <= k < |slots| ==> slots[k] < |dest|
    ensures forall i :: 0 <= i < |dest| ==>
      Fill(dest, slots, rx)[i] == if lo <= i < hi then rx[i - lo] else dest[i]
    decreases hi - lo
  {
    if lo < hi {
      assert IsRange(slots[1..], lo + 1, hi);
      FillRange(dest[lo := rx[0]], slots[1..], lo + 1, hi, rx[1..]);
    }
  }

  /** check_address_validity: a stub that accepts every request. */
  function CheckAddressValidity(addr: bv32, length: u16): (ok: bool)
    ensures ok
  {
    true
  }

  /** Everything the read sends before the data arrives. */
  function ReadPreamble(addr: bv32, length: u16, dummyCycles: u8): (t: Trace)
    ensures PopCount(t) == 0
    ensures forall e :: e in t ==> !e.SetRxWatermark?
    ensures Pushed(t) == [Swap(addr)]
  {
    var setup := DummyCycles(dummyCycles) + WrapLength(length) + [PushByte(ReadOp), ByteCmd];
    var address := WordBigEndian(addr);
    var wait := HostWait(dummyCycles) + [Cmd(length - 1, false, RxOnly)];
    var t := setup + address + wait;
    assert forall e :: e in t ==> !e.PopWord? && !e.SetRxWatermark?;
    PopCountNone(t);
    PushedNone(setup);
    PushedNone(wait);
    PushedPair(address[0], address[1]);
    PushedConcat(setup, address);
    PushedConcat(setup + address, wait);
    t
  }

  datatype ReadOutcome = ReadOutcome(trace: Trace, buffer: seq<bv32>)

  /** What the read sends and pops: the preamble, the watermark loop, and
      one more pop for a partial tail word. */
  function ReadTrace(cfg: Config, addr: bv32, length: u16, dummyCycles: u8): (t: Trace)
    requires cfg.Valid()
    ensures var pre := ReadPreamble(addr, length, dummyCycles);
      |pre| < |t| && t[..|pre|] == pre
    ensures length % 4 != 0 ==> t[|t| - 1] == PopWord
  {
    var pre := ReadPreamble(addr, length, dummyCycles) + Drain(cfg, length, 0, 0).trace;
    if length % 4 == 0 then pre else pre + [PopWord]
  }

  /** The buffer the read leaves: the loop's pops in their slots, then, for
      a partial tail word, the low bytes of the last pop copied over the tail
      slot, with that word taken as popped (`tailInHostOrder == false`) or
      converted back to host order first (`true`). */
  function ReadBuffer(cfg: Config, dest: seq<bv32>, length: u16, rx: seq<bv32>, tailInHostOrder: bool): (r: seq<bv32>)
    requires cfg.Valid()
    requires WordsFor(length) <= |dest| && WordsFor(length) <= |rx|
    ensures |r| == |dest|
  {
    var drained := Drain(cfg, length, 0, 0);
    DrainSlots(cfg, length, 0, 0, length / 4);
    var filled := Fill(dest, drained.slots, rx);
    if length % 4 == 0 then filled
    else
      var popped := rx[|drained.slots|];
      var lastWord := if tailInHostOrder then Swap(popped) else popped;
      filled[length / 4 := CopyLowBytes(filled[length / 4], lastWord, drained.length % 4)]
  }

  /** The read (which, unlike the write, has no size check), with the tail
      word's bytes taken as popped (the program) or after converting it back
      to host order (the corrected read). */
  function ReadTransfer(cfg: Config, addr: bv32, dest: seq<bv32>, length: u16, dummyCycles: u8,
                        rx: seq<bv32>, tailInHostOrder: bool): (r: Result<ReadOutcome>)
    requires cfg.Valid()
    requires WordsFor(length) <= |dest| && WordsFor(length) <= |rx|
    ensures r.Ok? && |r.value.buffer| == |dest|
  {
    if !CheckAddressValidity(addr, length) then Err(AddressInvalid)
    else Ok(ReadOutcome(ReadTrace(cfg, addr, length, dummyCycles),
                        ReadBuffer(cfg, dest, length, rx, tailInHostOrder)))
  }

  /** spi_host_read. */
  function SpiHostRead(cfg: Config, addr: bv32, dest: seq<bv32>, length: u16, dummyCycles: u8,
                       rx: seq<bv32>): (r: Result<ReadOutcome>)
    requires cfg.Valid()
    requires WordsFor(length) <= |dest| && WordsFor(length) <= |rx|
    ensures r.Ok? && |r.value.buffer| == |dest|
  {
    ReadTransfer(cfg, addr, dest, length, dummyCycles, rx, false)
  }

  /** spi_host_read with the tail word converted back to host order before
      its bytes are copied. */
  function SpiHostReadCorrected(cfg: Config, addr: bv32, dest: seq<bv32>, length: u16, dummyCycles: u8,
                                rx: seq<bv32>): (r: Result<ReadOutcome>)
    requires cfg.Valid()
    requires WordsFor(length) <= |dest| && WordsFor(length) <= |rx|
    ensures r.Ok? && |r.value.buffer| == |dest|
  {
    ReadTransfer(cfg, addr, dest, length, dummyCycles, rx, true)
  }

  /** The words the read leaves in the buffer: popped word `i` in slot `i`
      for every whole word, the low `length % 4` bytes of the next popped
      word over the tail slot, and every later slot untouched. The loop's
      final `length` keeps the original remainder modulo 4, so the tail copy
      moves exactly `length % 4` bytes. */
  lemma ReadTransferBuffer(cfg: Config, addr: bv32, dest: seq<bv32>, length: u16, dummyCycles: u8,
                           rx: seq<bv32>, tailInHostOrder: bool)
    requires cfg.Valid()
    requires WordsFor(length) <= |dest| && WordsFor(length) <= |rx|
    ensures var out := ReadTransfer(cfg, addr, dest, length, dummyCycles, rx, tailInHostOrder).value.buffer;
      && (forall i :: 0 <= i < length / 4 ==> out[i] == rx[i])
      && (length % 4 != 0 ==>
            out[length / 4] == CopyLowBytes(dest[length / 4],
                                            if tailInHostOrder then Swap(rx[length / 4]) else rx[length / 4],
                                            length % 4))
      && (forall i :: WordsFor(length) <= i < |dest| ==> out[i] == dest[i])
  {
    var drained := Drain(cfg, length, 0, 0);
    DrainSlots(cfg, length, 0, 0, length / 4);
    DrainLength(cfg, length, 0, 0);
    Arith.ModOfModMultipleOf4(length, cfg.rxDepth);
    ReadBufferUnfold(cfg, dest, length, rx, tailInHostOrder);
    FillRange(dest, drained.slots, 0, length / 4, rx);
    var lastWord := if length % 4 == 0 then 0 else if tailInHostOrder then Swap(rx[length / 4]) else rx[length / 4];
    TailCopy(Fill(dest, drained.slots, rx), dest, rx, length, lastWord, ReadBuffer(cfg, dest, length, rx, tailInHostOrder));
  }

  /** The read's buffer in terms of the loop's pops and the tail copy. */
  lemma ReadBufferUnfold(cfg: Config, dest: seq<bv32>, length: u16, rx: seq<bv32>, tailInHostOrder: bool)
    requires cfg.Valid()
    requires WordsFor(length) <= |dest| && WordsFor(length) <= |rx|
    requires IsRange(Drain(cfg, length, 0, 0).slots, 0, length / 4)
    requires Drain(cfg, length, 0, 0).length % 4 == length % 4
    ensures var filled := Fill(dest, Drain(cfg, length, 0, 0).slots, rx);
      ReadBuffer(cfg, dest, length, rx, tailInHostOrder)
        == if length % 4 == 0 then filled
           else filled[length / 4 := CopyLowBytes(filled[length / 4],
                                                  if tailInHostOrder then Swap(rx[length / 4]) else rx[length / 4],
                                                  length % 4)]
  {
  }

  /** Copying the low `length % 4` bytes of `lastWord` over the tail slot of
      a buffer holding `rx`'s whole words and `dest` elsewhere. */
  lemma TailCopy(filled: seq<bv32>, dest: seq<bv32>, rx: seq<bv32>, length: nat, lastWord: bv32, out: seq<bv32>)
    requires |filled| == |dest| && WordsFor(length) <= |dest| && length / 4 <= |rx|
    requires forall i :: 0 <= i < |dest| ==> filled[i] == if i < length / 4 then rx[i] else dest[i]
    requires out == if length % 4 == 0 then filled
                    else filled[length / 4 := CopyLowBytes(filled[length / 4], lastWord, length % 4)]
    ensures forall i :: 0 <= i < length / 4 ==> out[i] == rx[i]
    ensures length % 4 != 0 ==> out[length / 4] == CopyLowBytes(dest[length / 4], lastWord, length % 4)
    ensures forall i :: WordsFor(length) <= i < |dest| ==> out[i] == dest[i]
  {
  }

  /** The program's read writes exactly the first `length` bytes of the
      buffer, with the bytes of the popped words in order, and no byte beyond
      them. */
  lemma ReadWritesExactlyLength(cfg: Config, addr: bv32, dest: seq<bv32>, length: u16, dummyCycles: u8,
                                rx: seq<bv32>)
    requires cfg.Valid()
    requires WordsFor(length) <= |dest| && WordsFor(length) <= |rx|
    ensures var out := SpiHostRead(cfg, addr, dest, length, dummyCycles, rx).value.buffer;
      && SameBytes(out, rx, length)
      && forall p :: length <= p < 4 * |dest| ==> ByteAt(out, p) == ByteAt(dest, p)
  {
    var out := SpiHostRead(cfg, addr, dest, length, dummyCycles, rx).value.buffer;
    ReadTransferBuffer(cfg, addr, dest, length, dummyCycles, rx, false);
    forall p | 0 <= p < length
      ensures ByteAt(out, p) == ByteAt(rx, p)
    {
      BytesBelowLength(out, dest, rx, length, p);
    }
    forall p | length <= p < 4 * |dest|
      ensures ByteAt(out, p) == ByteAt(dest, p)
    {
      BytesFromLength(out, dest, length, p);
    }
  }

  /** A buffer holding `src`'s words below `length / 4` and the low
      `length % 4` bytes of `src`'s next word agrees with `src` on every byte
      below `length`. */
  lemma BytesBelowLength(out: seq<bv32>, dest: seq<bv32>, src: seq<bv32>, length: nat, p: nat)
    requires WordsFor(length) <= |out| && WordsFor(length) <= |src| && |out| == |dest|
    requires forall i :: 0 <= i < length / 4 ==> out[i] == src[i]
    requires length % 4 != 0 ==> out[length / 4] == CopyLowBytes(dest[length / 4], src[length / 4], length % 4)
    requires p < length
    ensures ByteAt(out, p) == ByteAt(src, p)
  {
    if p / 4 == length / 4 {
      assert length % 4 != 0 && p % 4 < length % 4;
    }
  }

  /** A buffer that keeps `dest`'s later words and the high bytes of the tail
      word agrees with `dest` on every byte from `length` on. */
  lemma BytesFromLength(out: seq<bv32>, dest: seq<bv32>, length: nat, p: nat)
    requires WordsFor(length) <= |out| && |out| == |dest|
    requires forall i :: WordsFor(length) <= i < |dest| ==> out[i] == dest[i]
    requires length % 4 != 0 ==>
      forall k :: length % 4 <= k < 4 ==> ByteOf(out[length / 4], k) == ByteOf(dest[length / 4], k)
    requires length <= p < 4 * |dest|
    ensures ByteAt(out, p) == ByteAt(dest, p)
  {
    if p / 4 == length / 4 && length % 4 != 0 {
      assert p % 4 >= length % 4;
    }
  }

  /** The read pops exactly as many words as carry `length` bytes, and never
      sets a watermark above the RX FIFO's depth in words. */
  lemma ReadTraceCounts(cfg: Config, addr: bv32, dest: seq<bv32>, length: u16, dummyCycles: u8,
                        rx: seq<bv32>, tailInHostOrder: bool)
    requires cfg.Valid()
    requires WordsFor(length) <= |dest| && WordsFor(length) <= |rx|
    ensures var t := ReadTransfer(cfg, addr, dest, length, dummyCycles, rx, tailInHostOrder).value.trace;
      && PopCount(t) == WordsFor(length)
      && forall e :: e in t && e.SetRxWatermark? ==> e.words <= cfg.rxDepth / 4
  {
    ReadTracePops(cfg, addr, length, dummyCycles);
  }

  /** The read's trace pops `DIV_ROUND_UP(length, 4)` words and sets only
      watermarks within the RX FIFO. */
  lemma ReadTracePops(cfg: Config, addr: bv32, length: u16, dummyCycles: u8)
    requires cfg.Valid()
    ensures var t := ReadTrace(cfg, addr, length, dummyCycles);
      && PopCount(t) == WordsFor(length)
      && forall e :: e in t && e.SetRxWatermark? ==> e.words <= cfg.rxDepth / 4
  {
    var drained := Drain(cfg, length, 0, 0);
    DrainSlots(cfg, length, 0, 0, length / 4);
    DrainTrace(cfg, length, 0, 0);
    var pre := ReadPreamble(addr, length, dummyCycles);
    PopCountConcat(pre, drained.trace);
    if length % 4 != 0 {
      PopCountConcat(pre + drained.trace, [PopWord]);
      assert [PopWord][1..] == [];
    }
  }

  /** Before the read op-code the slave holds the dummy-cycle count and the
      length in words; the op-code goes out in its own held segment, the
      address follows most significant byte first, and the dummy wait
      declares the programmed cycle count. */
  lemma ReadProgramsSlave(regs: SlaveRegs, addr: bv32, length: u16, dummyCycles: u8)
    ensures var t := ReadPreamble(addr, length, dummyCycles);
      && var r := Apply(regs, t[..12]);
      && r.Some?
      && r.value.dummyCycles == dummyCycles
      && r.value.WrapWords() == length / 4
      && t[12] == PushByte(ReadOp) && t[13] == ByteCmd
      && t[14..16] == WordBigEndian(addr)
      && (dummyCycles != 0 ==> t[16] == Cmd(dummyCycles, true, Dummy))
      && t[|t| - 1] == Cmd(length - 1, false, RxOnly)
  {
    var t := ReadPreamble(addr, length, dummyCycles);
    var dummy := DummyCycles(dummyCycles);
    var wrap := WrapLength(length);
    assert t[..12] == dummy + wrap;
    DummyCyclesProgramsSlave(regs, dummyCycles);
    ApplyConcat(regs, dummy, wrap);
    WrapLengthProgramsSlave(regs.(dummyCycles := dummyCycles), length);
  }
}

=== FILE: registers.dfy ===
/** The slave register programmer: the fixed command sequences that set the
    slave's dummy-cycle and wrap-length registers, the dummy wait, and the
    big-endian address phase. `SlaveRegs` and `Apply` are the slave's side of
    the register-write protocol and serve as the reference the sequences are
    checked against. */
module Registers {
  import opened Wire
  import opened ByteOrder

  /** LOWER_BYTE_16_BITS in integer form, `x & 0xFF` on a non-negative
      integer; `ByteOrder.LowerByte16` is the same macro on words. */
  function LowByte(x: nat): u8 { x % 0x100 }

  /** UPPER_BYTE_16_BITS in integer form, `(x & 0xFF00) >> 8` on a
      non-negative integer; `ByteOrder.UpperByte16` is the same macro on words. */
  function HighByte(x: nat): u8 { (x / 0x100) % 0x100 }

  /** The register loop of write_wrap_length and write_dummy_cycles: each byte
      goes into the TX FIFO and is sent by its own held one-byte segment. */
  function SendBytes(bs: seq<u8>): (t: Trace)
    ensures |t| == 2 * |bs|
    ensures forall i :: 0 <= i < |bs| ==> t[2 * i] == PushByte(bs[i]) && t[2 * i + 1] == ByteCmd
    ensures forall e :: e in t ==> e.PushByte? || e == ByteCmd
  {
    if |bs| == 0 then [] else [PushByte(bs[0]), ByteCmd] + SendBytes(bs[1..])
  }

  /** write_wrap_length: the word count `length >> 2` split over the two
      wrap-length registers. */
  function WrapLength(length: u16): (t: Trace)
    ensures |t| == 8
    ensures t[1] == ByteCmd && t[3] == ByteCmd && t[5] == ByteCmd && t[7] == ByteCmd
    ensures t[0] == PushByte(SetWrapLowOp) && t[4] == PushByte(SetWrapHighOp)
    ensures t[2].PushByte? && t[6].PushByte?
    ensures t[2].b + 0x100 * t[6].b == length / 4
    ensures t[6].b <= 0x3F
    ensures forall e :: e in t ==> e.PushByte? || e == ByteCmd
  {
    var words := length / 4;
    SendBytes([SetWrapLowOp, LowByte(words), SetWrapHighOp, HighByte(words)])
  }

  lemma WrapLengthExample()
    ensures WrapLength(4100) == [PushByte(0x20), ByteCmd, PushByte(0x01), ByteCmd,
                                 PushByte(0x30), ByteCmd, PushByte(0x04), ByteCmd]
  {
    var t := WrapLength(4100);
    assert t[2].b + 0x100 * t[6].b == 1025;
  }

  /** write_dummy_cycles: op-code 0x11, then the cycle count. */
  function DummyCycles(cycles: u8): (t: Trace)
    ensures |t| == 4 && t[1] == ByteCmd && t[3] == ByteCmd
    ensures t[0] == PushByte(SetDummyCyclesOp) && t[2] == PushByte(cycles)
    ensures forall e :: e in t ==> e.PushByte? || e == ByteCmd
  {
    SendBytes([SetDummyCyclesOp, cycles])
  }

  /** spi_host_wait: no segment for zero cycles, otherwise one held dummy
      segment whose length field is the cycle count itself. */
  function HostWait(cycles: u8): (t: Trace)
    ensures cycles == 0 <==> t == []
    ensures |t| <= 1
    ensures forall e :: e in t ==> e == Cmd(cycles, true, Dummy)
  {
    if cycles == 0 then [] else [Cmd(cycles, true, Dummy)]
  }

  /** write_word_big_endian: one swapped word and a held four-byte segment,
      so the word goes out most significant byte first. */
  function WordBigEndian(word: bv32): (t: Trace)
    ensures |t| == 2 && t[0].PushWord? && t[1] == Cmd(3, true, TxOnly)
    ensures WireOrder(t[0].w) == [ByteOf(word, 3), ByteOf(word, 2), ByteOf(word, 1), ByteOf(word, 0)]
    ensures TxBytes(t) == 4
  {
    var t := [PushWord(Swap(word)), Cmd(3, true, TxOnly)];
    assert TxBytes(t[1..]) == 4 by { assert t[1..][1..] == []; }
    t
  }

  /** The slave's configuration registers. */
  datatype SlaveRegs = SlaveRegs(dummyCycles: u8, wrapLow: u8, wrapHigh: u8) {
    /** The wrap length the register pair holds, in words. */
    function WrapWords(): nat { wrapLow + 0x100 * wrapHigh }
  }

  /** The effect of one register write `[op][value]` on the slave. */
  function WriteRegister(regs: SlaveRegs, op: u8, value: u8): Option<SlaveRegs>
  {
    if op == SetDummyCyclesOp then Some(regs.(dummyCycles := value))
    else if op == SetWrapLowOp then Some(regs.(wrapLow := value))
    else if op == SetWrapHighOp then Some(regs.(wrapHigh := value))
    else None
  }

  /** How the slave takes a run of register writes, each byte in its own held
      one-byte segment; `None` for anything else. */
  function Apply(regs: SlaveRegs, t: Trace): Option<SlaveRegs>
    decreases |t|
  {
    if |t| == 0 then Some(regs)
    else if |t| >= 4 && t[0].PushByte? && t[1] == ByteCmd && t[2].PushByte? && t[3] == ByteCmd then
      match WriteRegister(regs, t[0].b, t[2].b)
      case Some(next) => Apply(next, t[4..])
      case None => None
    else None
  }

  /** After the wrap-length sequence the slave's register pair holds
      `length >> 2` and nothing else has changed. */
  lemma WrapLengthProgramsSlave(regs: SlaveRegs, length: u16)
    ensures var r := Apply(regs, WrapLength(length));
      && r.Some?
      && r.value.WrapWords() == length / 4
      && r.value.dummyCycles == regs.dummyCycles
  {
    var t := WrapLength(length);
    var mid := regs.(wrapLow := t[2].b);
    assert Apply(regs, t) == Apply(mid, t[4..]);
    assert Apply(mid, t[4..]) == Apply(mid.(wrapHigh := t[6].b), t[8..]);
  }

  /** After the dummy-cycle sequence the slave's dummy-cycle register holds
      the count and nothing else has changed. */
  lemma DummyCyclesProgramsSlave(regs: SlaveRegs, cycles: u8)
    ensures Apply(regs, DummyCycles(cycles)) == Some(regs.(dummyCycles := cycles))
  {
    var t := DummyCycles(cycles);
    assert Apply(regs, t) == Apply(regs.(dummyCycles := cycles), t[4..]);
  }

  /** Register writes applied one run after another. */
  lemma {:induction false} ApplyConcat(regs: SlaveRegs, a: Trace, b: Trace)
    requires Apply(regs, a).Some?
    ensures Apply(regs, a + b) == Apply(Apply(regs, a).value, b)
    decreases |a|
  {
    if |a| == 0 {
      assert a + b == b;
    } else {
      var next := WriteRegister(regs, a[0].b, a[2].b).value;
      assert (a + b)[..4] == a[..4];
      assert (a + b)[4..] == a[4..] + b;
      ApplyConcat(next, a[4..], b);
    }
  }
}

=== FILE: round_trip.dfy ===
/** The program's end-to-end check: write a buffer to the slave, read the
    same range back, convert the words back to host order and compare the
    first `length` bytes. The slave's memory is taken to be a loopback that
    returns the payload words it received, in order: the words popped by the
    read are the words pushed after the op-code and the address. */
module RoundTrip {
  import opened Wire
  import opened ByteOrder
  import opened WriteEngine
  import opened ReadEngine

  /** The payload words a write leaves in the slave, in wire order. */
  function Echo(sent: Trace): (ws: seq<bv32>)
    requires |Pushed(sent)| >= 2
    ensures |ws| == |Pushed(sent)| - 2
  {
    Pushed(sent)[2..]
  }

  /** The slave holds the swapped transfer words, whichever payload loop
      sent them. */
  lemma WriteEchoes(cfg: Config, addr: bv32, data: seq<bv32>, length: u16)
    requires cfg.Valid() && WordsFor(length) <= |data|
    ensures Echo(SpiHostWrite(cfg, addr, data, length).value) == SwapAll(TxWords(data, length))
    ensures Echo(SpiHostWriteCorrected(cfg, addr, data, length).value) == SwapAll(TxWords(data, length))
  {
  }

  /** The program's check as written: write `data`, read the same range
      back into `dest`, convert the words back to host order and compare
      the first `length` bytes. */
  predicate LoopbackPasses(cfg: Config, addr: bv32, data: seq<bv32>, dest: seq<bv32>,
                           length: u16, dummyCycles: u8)
    requires cfg.Valid() && WordsFor(length) <= |data| && WordsFor(length) <= |dest|
  {
    var echoed := Echo(SpiHostWrite(cfg, addr, data, length).value);
    var got := SpiHostRead(cfg, addr, dest, length, dummyCycles, echoed).value.buffer;
    SameBytes(MakeCompareDataCompatible(got, length), data, length)
  }

  /** A read buffer as ReadTransferBuffer describes it, filled from the
      swapped transfer words, with the tail word converted back or not. */
  predicate ReadBack(data: seq<bv32>, dest: seq<bv32>, got: seq<bv32>, length: u16, tailInHostOrder: bool)
    requires WordsFor(length) <= |data| && WordsFor(length) <= |dest| && |got| == |dest|
  {
    var echoed := SwapAll(TxWords(data, length));
    && (forall i :: 0 <= i < length / 4 ==> got[i] == echoed[i])
    && (length % 4 != 0 ==>
          got[length / 4] == CopyLowBytes(dest[length / 4],
                                          if tailInHostOrder then Swap(echoed[length / 4]) else echoed[length / 4],
                                          length % 4))
    && (forall i :: WordsFor(length) <= i < |dest| ==> got[i] == dest[i])
  }

  /** After the conversion, every whole word of such a buffer is the
      written word again. */
  lemma CompareWholeWords(data: seq<bv32>, dest: seq<bv32>, got: seq<bv32>, length: u16, tailInHostOrder: bool)
    requires WordsFor(length) <= |data| && WordsFor(length) <= |dest| && |got| == |dest|
    requires ReadBack(data, dest, got, length, tailInHostOrder)
    ensures forall i :: 0 <= i < length / 4 ==> MakeCompareDataCompatible(got, length)[i] == data[i]
  {
    var cmp := MakeCompareDataCompatible(got, length);
    forall i | 0 <= i < length / 4
      ensures cmp[i] == data[i]
    {
      SwapInvolutive(data[i]);
    }
  }

  /** The program as written, for whole-word lengths: the comparison sees
      the first `length` bytes of the written buffer, and the destination's
      words from `length / 4` on are as they were. */
  lemma RoundTripWholeWords(cfg: Config, addr: bv32, data: seq<bv32>, dest: seq<bv32>,
                            length: u16, dummyCycles: u8)
    requires cfg.Valid() && length % 4 == 0
    requires WordsFor(length) <= |data| && WordsFor(length) <= |dest|
    ensures var echoed := Echo(SpiHostWrite(cfg, addr, data, length).value);
      var got := SpiHostRead(cfg, addr, dest, length, dummyCycles, echoed).value.buffer;
      var cmp := MakeCompareDataCompatible(got, length);
      && SameBytes(cmp, data, length)
      && cmp[length / 4..] == dest[length / 4..]
  {
    var echoed := Echo(SpiHostWrite(cfg, addr, data, length).value);
    WriteEchoes(cfg, addr, data, length);
    var got := SpiHostRead(cfg, addr, dest, length, dummyCycles, echoed).value.buffer;
    ReadTransferBuffer(cfg, addr, dest, length, dummyCycles, echoed, false);
    assert ReadBack(data, dest, got, length, false);
    CompareAsWritten(data, dest, got, length);
  }

  /** What the word-level echo hides: shifted lowest byte first, the swapped
      tail word puts one of its zero padding bytes on the wire first, so a
      final segment declaring only `length % 4` bytes does not carry the
      tail's data bytes. */
  lemma CorrectedTailLeadsWithPadding(data: seq<bv32>, length: u16)
    requires WordsFor(length) <= |data| && length % 4 != 0
    ensures WireOrder(Swap(TailWord(data, length)))[0] == 0
  {
    var tail := TailWord(data, length);
    assert ByteOf(Swap(tail), 0) == ByteOf(tail, 3);
  }

  /** The byte-level conclusion of RoundTripWholeWords. */
  lemma CompareAsWritten(data: seq<bv32>, dest: seq<bv32>, got: seq<bv32>, length: u16)
    requires WordsFor(length) <= |data| && WordsFor(length) <= |dest| && |got| == |dest|
    requires length % 4 == 0
    requires ReadBack(data, dest, got, length, false)
    ensures var cmp := MakeCompareDataCompatible(got, length);
      && SameBytes(cmp, data, length)
      && cmp[length / 4..] == dest[length / 4..]
  {
    var cmp := MakeCompareDataCompatible(got, length);
    CompareWholeWords(data, dest, got, length, false);
    forall p | 0 <= p < length
      ensures ByteAt(cmp, p) == ByteAt(data, p)
    {
      assert p / 4 < length / 4;
    }
  }

  /** The corrected write and read, for every length: the comparison sees
      the first `length` bytes of the written buffer, and every later byte of
      the destination is as it was. */
  lemma RoundTripCorrected(cfg: Config, addr: bv32, data: seq<bv32>, dest: seq<bv32>,
                           length: u16, dummyCycles: u8)
    requires cfg.Valid()
    requires WordsFor(length) <= |data| && WordsFor(length) <= |dest|
    ensures var echoed := Echo(SpiHostWriteCorrected(cfg, addr, data, length).value);
      var got := SpiHostReadCorrected(cfg, addr, dest, length, dummyCycles, echoed).value.buffer;
      var cmp := MakeCompareDataCompatible(got, length);
      && SameBytes(cmp, data, length)
      && forall p :: length <= p < 4 * |dest| ==> ByteAt(cmp, p) == ByteAt(dest, p)
  {
    var echoed := Echo(SpiHostWriteCorrected(cfg, addr, data, length).value);
    WriteEchoes(cfg, addr, data, length);
    var got := SpiHostReadCorrected(cfg, addr, dest, length, dummyCycles, echoed).value.buffer;
    ReadTransferBuffer(cfg, addr, dest, length, dummyCycles, echoed, true);
    assert ReadBack(data, dest, got, length, true);
    CompareCorrected(data, dest, got, length);
  }

  /** The byte-level conclusion of the corrected round trip. */
  lemma CompareCorrected(data: seq<bv32>, dest: seq<bv32>, got: seq<bv32>, length: u16)
    requires WordsFor(length) <= |data| && WordsFor(length) <= |dest| && |got| == |dest|
    requires ReadBack(data, dest, got, length, true)
    ensures var cmp := MakeCompareDataCompatible(got, length);
      && SameBytes(cmp, data, length)
      && forall p :: length <= p < 4 * |dest| ==> ByteAt(cmp, p) == ByteAt(dest, p)
  {
    var cmp := MakeCompareDataCompatible(got, length);
    CompareWholeWords(data, dest, got, length, true);
    if length % 4 != 0 {
      SwapInvolutive(TailWord(data, length));
      assert cmp[length / 4] == CopyLowBytes(dest[length / 4], TailWord(data, length), length % 4);
    }
    forall p | 0 <= p < length
      ensures ByteAt(cmp, p) == ByteAt(data, p)
    {
      if p / 4 == length / 4 {
        assert p % 4 < length % 4;
        assert length - length % 4 + p % 4 == p;
      }
    }
    forall p | length <= p < 4 * |dest|
      ensures ByteAt(cmp, p) == ByteAt(dest, p)
    {
      if p / 4 == length / 4 && length % 4 != 0 {
        assert p % 4 >= length % 4;
      }
    }
  }

  /** The program as written, for a length with a tail: the tail word comes
      back in wire order, so the first tail byte the comparison sees is the
      most significant byte of a word whose tail bytes sit in its low end,
      which is always zero. */
  lemma TailReadsBackZero(cfg: Config, addr: bv32, data: seq<bv32>, dest: seq<bv32>,
                          length: u16, dummyCycles: u8)
    requires cfg.Valid() && length % 4 != 0
    requires WordsFor(length) <= |data| && WordsFor(length) <= |dest|
    ensures var echoed := Echo(SpiHostWrite(cfg, addr, data, length).value);
      var got := SpiHostRead(cfg, addr, dest, length, dummyCycles, echoed).value.buffer;
      var cmp := MakeCompareDataCompatible(got, length);
      ByteAt(cmp, length - length % 4) == 0
  {
    var echoed := Echo(SpiHostWrite(cfg, addr, data, length).value);
    WriteEchoes(cfg, addr, data, length);
    var got := SpiHostRead(cfg, addr, dest, length, dummyCycles, echoed).value.buffer;
    ReadTransferBuffer(cfg, addr, dest, length, dummyCycles, echoed, false);
    assert ReadBack(data, dest, got, length, false);
    TailByteZero(data, dest, got, length);
  }

  /** The byte-level conclusion of TailReadsBackZero. */
  lemma TailByteZero(data: seq<bv32>, dest: seq<bv32>, got: seq<bv32>, length: u16)
    requires WordsFor(length) <= |data| && WordsFor(length) <= |dest| && |got| == |dest|
    requires length % 4 != 0
    requires ReadBack(data, dest, got, length, false)
    ensures ByteAt(MakeCompareDataCompatible(got, length), length - length % 4) == 0
  {
    var tail := TailWord(data, length);
    assert got[length / 4] == CopyLowBytes(dest[length / 4], Swap(tail), length % 4);
    assert ByteOf(Swap(tail), 0) == ByteOf(tail, 3);
    assert (length - length % 4) / 4 == length / 4 && (length - length % 4) % 4 == 0;
  }

  /** As written, whenever the first tail byte of the data is not 0, the
      program's own comparison of the round trip fails. */
  lemma TailRoundTripFails(cfg: Config, addr: bv32, data: seq<bv32>, dest: seq<bv32>,
                           length: u16, dummyCycles: u8)
    requires cfg.Valid() && length % 4 != 0
    requires WordsFor(length) <= |data| && WordsFor(length) <= |dest|
    requires ByteAt(data, length - length % 4) != 0
    ensures !LoopbackPasses(cfg, addr, data, dest, length, dummyCycles)
  {
    TailReadsBackZero(cfg, addr, data, dest, length, dummyCycles);
  }

  /** A one-byte transfer of 0xAB: the program's own comparison fails. */
  lemma TailRoundTripFailsExample(cfg: Config, addr: bv32, dest: seq<bv32>, dummyCycles: u8)
    requires cfg.Valid() && |dest| >= 1
    ensures !LoopbackPasses(cfg, addr, [0xAB], dest, 1, dummyCycles)
  {
    var data: seq<bv32> := [0xAB];
    assert ByteAt(data, 0) == 0xAB;
    TailRoundTripFails(cfg, addr, data, dest, 1, dummyCycles);
  }

  /** An example put through the program's write, read, convert and compare
      sequence: the four words 0x00010203 .. 0x0C0D0E0F, written at any
      address and read back from it with the program's dummy-cycle count,
      compare equal. */
  lemma SixteenByteScenario(cfg: Config, addr: bv32, dest: seq<bv32>)
    requires cfg.Valid() && |dest| >= 4
    ensures LoopbackPasses(cfg, addr, [0x0001_0203, 0x0405_0607, 0x0809_0A0B, 0x0C0D_0E0F], dest,
                           16, DummyCyclesDefault)
  {
    var data: seq<bv32> := [0x0001_0203, 0x0405_0607, 0x0809_0A0B, 0x0C0D_0E0F];
    RoundTripWholeWords(cfg, addr, data, dest, 16, DummyCyclesDefault);
  }
}

=== FILE: wire.dfy ===
/** Vocabulary shared by the whole model of the SPI-to-OBI slave test program:
    the C integer widths, the slave's op-codes, the error flags, the host's
    FIFO depths, and the SPI host itself as an append-only trace of the driver
    calls the program makes. */
module Wire {

  /** `uint8_t` and `uint16_t` values. */
  type u8 = x: int | 0 <= x < 0x100
  type u16 = x: int | 0 <= x < 0x1_0000

  /** Slave op-codes. */
  const SetDummyCyclesOp: u8 := 0x11
  const SetWrapLowOp: u8 := 0x20
  const SetWrapHighOp: u8 := 0x30
  const ReadOp: u8 := 0x0B
  const WriteOp: u8 := 0x02

  /** The dummy-cycle count the program's own transfer uses. */
  const DummyCyclesDefault: u8 := 0x20

  const WordSizeInBytes: nat := 4
  /** Largest transfer the slave accepts, in words. */
  const MaxDataSize: nat := 0x1_0000

  datatype Direction = TxOnly | RxOnly | Dummy

  /** One call into the SPI host driver. Only the calls that move data or
      issue a segment are recorded; the readiness and FIFO-level waits are not.
      `Cmd.len` is the value the program writes into the command's length
      field (bytes minus one for data segments, the cycle count for dummy
      segments); every command uses standard single speed. */
  datatype Event =
    | PushByte(b: u8)
    | PushWord(w: bv32)
    | Cmd(len: int, csaat: bool, dir: Direction)
    | SetRxWatermark(words: int)
    | PopWord

  type Trace = seq<Event>

  /** The one-byte transmit segment, chip select held, that follows every
      op-code and register byte. */
  const ByteCmd: Event := Cmd(0, true, TxOnly)

  /** The error flags of the program (every flag except OK). */
  datatype SlaveError =
    | NullPtr | NotInit | AddressInvalid | CsidInvalid | SizeOfDataExceeded
    | CommandFull | SpeedInvalid | TxQueueFull | RxQueueEmpty | NotReady
    | EventInvalid | ErrorInvalid

  /** A routine's result: `Ok` is the OK flag, `Err` any other flag. */
  datatype Result<T> = Ok(value: T) | Err(error: SlaveError)

  datatype Option<T> = None | Some(value: T)

  /** Depths of the host's FIFOs: TX in words, RX in bytes. The bounds keep
      every 16-bit quantity the program derives from them exact. */
  datatype Config = Config(txDepth: nat, rxDepth: nat) {
    predicate Valid() {
      && 1 <= txDepth && txDepth * 4 < 0x1_0000
      && 4 <= rxDepth < 0x1_0000 && rxDepth % 4 == 0
    }
  }

  /** The DIV_ROUND_UP macro. */
  function DivRoundUp(n: nat, d: nat): nat
    requires d > 0
  {
    (n + d - 1) / d
  }

  /** DIV_ROUND_UP gives the fewest multiples of `d` that cover `n`. */
  lemma DivRoundUpCovers(n: nat, d: nat)
    requires d > 0
    ensures d * DivRoundUp(n, d) >= n && d * DivRoundUp(n, d) < n + d
  {
    var r := DivRoundUp(n, d);
    assert n + d - 1 == d * r + (n + d - 1) % d;
  }

  /** Number of FIFO words that carry `length` bytes. */
  function WordsFor(length: nat): (n: nat)
    ensures 4 * n >= length && 4 * n < length + 4
    ensures n == length / 4 + (if length % 4 == 0 then 0 else 1)
  {
    DivRoundUp(length, WordSizeInBytes)
  }

  /** Words pushed into the TX FIFO, in order. */
  function Pushed(t: Trace): seq<bv32>
  {
    if |t| == 0 then []
    else (if t[0].PushWord? then [t[0].w] else []) + Pushed(t[1..])
  }

  /** Number of words popped from the RX FIFO. */
  function PopCount(t: Trace): nat
  {
    if |t| == 0 then 0
    else (if t[0].PopWord? then 1 else 0) + PopCount(t[1..])
  }

  /** Bytes declared by the transmit segments of a trace. */
  function TxBytes(t: Trace): int
  {
    if |t| == 0 then 0
    else (if t[0].Cmd? && t[0].dir == TxOnly then t[0].len + 1 else 0) + TxBytes(t[1..])
  }

  lemma {:induction false} PushedConcat(a: Trace, b: Trace)
    ensures Pushed(a + b) == Pushed(a) + Pushed(b)
    decreases |a|
  {
    if |a| == 0 {
      assert a + b == b;
    } else {
      var head := if a[0].PushWord? then [a[0].w] else [];
      assert (a + b)[0] == a[0];
      assert (a + b)[1..] == a[1..] + b;
      assert Pushed(a + b) == head + Pushed(a[1..] + b);
      PushedConcat(a[1..], b);
      assert Pushed(a) == head + Pushed(a[1..]);
    }
  }

  lemma PushedPair(a: Event, b: Event)
    ensures Pushed([a, b]) == (if a.PushWord? then [a.w] else []) + (if b.PushWord? then [b.w] else [])
  {
    PushedConcat([a], [b]);
    PushedSingle(a);
    PushedSingle(b);
    assert [a, b] == [a] + [b];
  }

  /** A trace without word pushes pushes nothing. */
  lemma {:induction false} PushedNone(t: Trace)
    requires forall e :: e in t ==> !e.PushWord?
    ensures Pushed(t) == []
    decreases |t|
  {
    if |t| > 0 {
      assert forall e :: e in t[1..] ==> e in t;
      PushedNone(t[1..]);
    }
  }

  /** A trace without pops pops nothing. */
  lemma {:induction false} PopCountNone(t: Trace)
    requires forall e :: e in t ==> !e.PopWord?
    ensures PopCount(t) == 0
    decreases |t|
  {
    if |t| > 0 {
      assert forall e :: e in t[1..] ==> e in t;
      PopCountNone(t[1..]);
    }
  }

  lemma PushedSingle(e: Event)
    ensures Pushed([e]) == if e.PushWord? then [e.w] else []
  {
    assert [e][1..] == [];
  }

  lemma {:induction false} PopCountConcat(a: Trace, b: Trace)
    ensures PopCount(a + b) == PopCount(a) + PopCount(b)
    decreases |a|
  {
    if |a| == 0 {
      assert a + b == b;
    } else {
      assert (a + b)[1..] == a[1..] + b;
      PopCountConcat(a[1..], b);
    }
  }

  lemma {:induction false} TxBytesConcat(a: Trace, b: Trace)
    ensures TxBytes(a + b) == TxBytes(a) + TxBytes(b)
    decreases |a|
  {
    if |a| == 0 {
      assert a + b == b;
    } else {
      assert (a + b)[1..] == a[1..] + b;
      TxBytesConcat(a[1..], b);
    }
  }
}

=== FILE: write_engine.dfy ===
/** The chunked write engine (spi_host_write): size check, wrap-length
    programming, op-code and big-endian address, then the payload words pushed
    through a TX FIFO of `txDepth` words, one held segment per full FIFO load
    and a final segment that releases chip select. */
module WriteEngine {
  import opened Wire
  import opened ByteOrder
  import opened Registers
  import Arith

  /** The held segment that sends one full TX FIFO load, `4 * txDepth` bytes. */
  function FullSegment(cfg: Config): Event
    requires cfg.Valid()
  {
    Cmd(cfg.txDepth * 4 - 1, true, TxOnly)
  }

  /** No command in the trace releases chip select. */
  predicate HoldsChipSelect(t: Trace)
  {
    forall e :: e in t && e.Cmd? ==> e.csaat
  }

  /** Every word swapped and pushed, with no segment between them. */
  function PushAll(ws: seq<bv32>): (t: Trace)
    ensures Pushed(t) == SwapAll(ws)
    ensures TxBytes(t) == 0
    ensures forall e :: e in t ==> e.PushWord?
  {
    if |ws| == 0 then [] else [PushWord(Swap(ws[0]))] + PushAll(ws[1..])
  }

  /** Every event is a word push or a held full-load segment. */
  predicate LoopEvents(cfg: Config, t: Trace)
    requires cfg.Valid()
  {
    forall e :: e in t ==> e.PushWord? || e == FullSegment(cfg)
  }

  lemma LoopEventsConcat(cfg: Config, a: Trace, b: Trace)
    requires cfg.Valid() && LoopEvents(cfg, a) && LoopEvents(cfg, b)
    ensures LoopEvents(cfg, a + b)
  {
  }

  datatype TxProgress = TxProgress(trace: Trace, counter: nat)

  /** The data loop of spi_host_write from a given value of `counter`: before
      each word, a full FIFO load (`counter == txDepth`) is sent by a held
      segment and the counter restarts; then the swapped word is pushed. */
  function TxLoop(cfg: Config, ws: seq<bv32>, counter: nat): (r: TxProgress)
    requires cfg.Valid() && counter <= cfg.txDepth
    ensures r.counter <= cfg.txDepth
    ensures |ws| == 0 ==> r.counter == counter
    ensures |ws| > 0 ==> r.counter >= 1
    decreases |ws|
  {
    if |ws| == 0 then TxProgress([], counter)
    else
      var full := counter == cfg.txDepth;
      var rest := TxLoop(cfg, ws[1..], (if full then 0 else counter) + 1);
      var step := (if full then [FullSegment(cfg)] else []) + [PushWord(Swap(ws[0]))];
      TxProgress(step + rest.trace, rest.counter)
  }

  /** The loop pushes every word, swapped and in order, and declares nothing
      but full-load segments. */
  lemma {:induction false} TxLoopPushes(cfg: Config, ws: seq<bv32>, counter: nat)
    requires cfg.Valid() && counter <= cfg.txDepth
    ensures Pushed(TxLoop(cfg, ws, counter).trace) == SwapAll(ws)
    ensures LoopEvents(cfg, TxLoop(cfg, ws, counter).trace)
    decreases |ws|
  {
    if |ws| > 0 {
      var full := counter == cfg.txDepth;
      var next := (if full then 0 else counter) + 1;
      var rest := TxLoop(cfg, ws[1..], next).trace;
      var step := (if full then [FullSegment(cfg)] else []) + [PushWord(Swap(ws[0]))];
      TxLoopPushes(cfg, ws[1..], next);
      assert TxLoop(cfg, ws, counter).trace == step + rest;
      PushedConcat(step, rest);
      assert Pushed(step) == [Swap(ws[0])] by {
        if full { assert step[1..] == [PushWord(Swap(ws[0]))]; }
      }
      SwapAllCons(ws);
      LoopEventsConcat(cfg, step, rest);
    }
  }

  /** After `n >= 1` words the counter holds the number of words in the
      current FIFO load: `(counter + n - 1) mod txDepth + 1`. */
  lemma {:induction false} TxLoopCounter(cfg: Config, ws: seq<bv32>, counter: nat)
    requires cfg.Valid() && counter <= cfg.txDepth && |ws| >= 1
    ensures TxLoop(cfg, ws, counter).counter == (counter + |ws| - 1) % cfg.txDepth + 1
    decreases |ws|
  {
    var next := (if counter == cfg.txDepth then 0 else counter) + 1;
    var rest := ws[1..];
    if |rest| > 0 {
      TxLoopCounter(cfg, rest, next);
    }
    TxLoopCounterStep(cfg.txDepth, counter, |ws|, |rest|, TxLoop(cfg, rest, next).counter);
  }

  /** One step of the counter: `c` is the counter after the `m` words that
      follow the first of `n`. */
  lemma TxLoopCounterStep(d: nat, counter: nat, n: nat, m: nat, c: nat)
    requires 1 <= d && counter <= d && n == m + 1
    requires var next := (if counter == d then 0 else counter) + 1;
      && (m == 0 ==> c == next)
      && (m > 0 ==> c == (next + m - 1) % d + 1)
    ensures c == (counter + n - 1) % d + 1
  {
    if counter == d {
      Arith.DivSubDivisor(d + m, d);
      if m == 0 {
        Arith.DivModUnique(d, d, 1, 0);
      }
    } else if m == 0 {
      Arith.DivModUnique(counter, d, 0, counter);
    }
  }

  /** Reference chunking: `room` more words fit in the current FIFO load;
      each later load holds exactly `txDepth` words and is preceded by the
      segment that sends the previous one. */
  function Segments(cfg: Config, ws: seq<bv32>, room: nat): Trace
    requires cfg.Valid() && room <= cfg.txDepth
    decreases |ws|, cfg.txDepth - room
  {
    if |ws| <= room then PushAll(ws)
    else PushAll(ws[..room]) + [FullSegment(cfg)] + Segments(cfg, ws[room..], cfg.txDepth)
  }

  lemma SegmentsStep(cfg: Config, ws: seq<bv32>, room: nat)
    requires cfg.Valid() && 1 <= room <= cfg.txDepth && |ws| >= 1
    ensures Segments(cfg, ws, room) == [PushWord(Swap(ws[0]))] + Segments(cfg, ws[1..], room - 1)
  {
    var push := [PushWord(Swap(ws[0]))];
    if |ws| <= room {
      assert PushAll(ws) == push + PushAll(ws[1..]);
    } else {
      var a, b := ws[1..][..room - 1], ws[1..][room - 1..];
      var full := [FullSegment(cfg)];
      assert ws[..room] == [ws[0]] + a;
      assert ([ws[0]] + a)[1..] == a;
      assert ws[room..] == b;
      assert PushAll(ws[..room]) == push + PushAll(a);
      assert Segments(cfg, ws[1..], room - 1) == PushAll(a) + full + Segments(cfg, b, cfg.txDepth);
      assert (push + PushAll(a)) + full + Segments(cfg, b, cfg.txDepth)
          == push + (PushAll(a) + full + Segments(cfg, b, cfg.txDepth));
    }
  }

  lemma {:induction false} TxLoopFollowsSegments(cfg: Config, ws: seq<bv32>, counter: nat)
    requires cfg.Valid() && counter <= cfg.txDepth
    ensures TxLoop(cfg, ws, counter).trace == Segments(cfg, ws, cfg.txDepth - counter)
    decreases |ws|
  {
    if |ws| == 0 {
      assert TxLoop(cfg, ws, counter).trace == [];
      assert Segments(cfg, ws, cfg.txDepth - counter) == PushAll(ws) == [];
    } else if counter == cfg.txDepth {
      TxLoopFollowsSegments(cfg, ws[1..], 1);
      FollowsAfterFullLoad(cfg, ws);
    } else {
      TxLoopFollowsSegments(cfg, ws[1..], counter + 1);
      FollowsWithRoom(cfg, ws, counter);
    }
  }

  /** A turn of the loop on a full FIFO: the full-load segment, then the
      word, then the rest into a fresh load. */
  lemma FollowsAfterFullLoad(cfg: Config, ws: seq<bv32>)
    requires cfg.Valid() && |ws| >= 1
    requires TxLoop(cfg, ws[1..], 1).trace == Segments(cfg, ws[1..], cfg.txDepth - 1)
    ensures TxLoop(cfg, ws, cfg.txDepth).trace == Segments(cfg, ws, 0)
  {
    TxLoopUnfoldFull(cfg, ws);
    SegmentsEmptyRoom(cfg, ws);
    SegmentsStep(cfg, ws, cfg.txDepth);
    ChainFull(TxLoop(cfg, ws, cfg.txDepth).trace, [FullSegment(cfg)], [PushWord(Swap(ws[0]))],
              TxLoop(cfg, ws[1..], 1).trace, Segments(cfg, ws[1..], cfg.txDepth - 1),
              Segments(cfg, ws, 0), Segments(cfg, ws, cfg.txDepth));
  }

  /** A turn of the loop with room left in the FIFO: the word, then the rest
      into the same load. */
  lemma FollowsWithRoom(cfg: Config, ws: seq<bv32>, counter: nat)
    requires cfg.Valid() && counter < cfg.txDepth && |ws| >= 1
    requires TxLoop(cfg, ws[1..], counter + 1).trace == Segments(cfg, ws[1..], cfg.txDepth - (counter + 1))
    ensures TxLoop(cfg, ws, counter).trace == Segments(cfg, ws, cfg.txDepth - counter)
  {
    TxLoopUnfoldRoom(cfg, ws, counter);
    SegmentsStep(cfg, ws, cfg.txDepth - counter);
  }

  lemma ChainFull(loop: Trace, full: Trace, push: Trace, loopRest: Trace, segRest: Trace,
                  segEmpty: Trace, segFull: Trace)
    requires loop == (full + push) + loopRest && loopRest == segRest
    requires segEmpty == full + segFull && segFull == push + segRest
    ensures loop == segEmpty
  {
    assert (full + push) + segRest == full + (push + segRest);
  }

  /** One turn of the counter loop. */
  lemma TxLoopUnfoldFull(cfg: Config, ws: seq<bv32>)
    requires cfg.Valid() && |ws| >= 1
    ensures TxLoop(cfg, ws, cfg.txDepth).trace
      == ([FullSegment(cfg)] + [PushWord(Swap(ws[0]))]) + TxLoop(cfg, ws[1..], 1).trace
  {
  }

  lemma TxLoopUnfoldRoom(cfg: Config, ws: seq<bv32>, counter: nat)
    requires cfg.Valid() && counter < cfg.txDepth && |ws| >= 1
    ensures TxLoop(cfg, ws, counter).trace
      == [PushWord(Swap(ws[0]))] + TxLoop(cfg, ws[1..], counter + 1).trace
  {
    assert [] + [PushWord(Swap(ws[0]))] == [PushWord(Swap(ws[0]))];
  }

  lemma SwapAllCons(ws: seq<bv32>)
    requires |ws| >= 1
    ensures SwapAll(ws) == [Swap(ws[0])] + SwapAll(ws[1..])
  {
  }

  lemma SegmentsEmptyRoom(cfg: Config, ws: seq<bv32>)
    requires cfg.Valid() && |ws| >= 1
    ensures Segments(cfg, ws, 0) == [FullSegment(cfg)] + Segments(cfg, ws, cfg.txDepth)
  {
    assert ws[..0] == [] && ws[0..] == ws;
    assert PushAll([]) == [];
  }

  /** Bytes declared by the full-load segments of the reference chunking that
      starts from an empty FIFO: one full load per `txDepth` words, the last
      load not counted. */
  lemma {:induction false} SegmentsTxBytes(cfg: Config, ws: seq<bv32>)
    requires cfg.Valid()
    ensures TxBytes(Segments(cfg, ws, cfg.txDepth)) == 4 * cfg.txDepth * FullLoads(|ws|, cfg.txDepth)
    decreases |ws|
  {
    var d := cfg.txDepth;
    if |ws| <= d {
      assert TxBytes(Segments(cfg, ws, d)) == 0;
      FullLoadsFirst(|ws|, d);
    } else {
      SegmentsTxBytes(cfg, ws[d..]);
      SegmentsFullLoad(cfg, ws);
      FullLoadsStep(|ws|, d);
    }
  }

  /** Number of full-load segments sent before the last load of `n` words. */
  function FullLoads(n: nat, d: nat): nat
    requires d >= 1
  {
    if n == 0 then 0 else (n - 1) / d
  }

  lemma FullLoadsFirst(n: nat, d: nat)
    requires 1 <= d && n <= d
    ensures FullLoads(n, d) == 0
  {
    if n > 0 {
      Arith.DivModUnique(n - 1, d, 0, n - 1);
    }
  }

  lemma FullLoadsStep(n: nat, d: nat)
    requires 1 <= d < n
    ensures 4 * d * FullLoads(n, d) == 4 * d + 4 * d * FullLoads(n - d, d)
  {
    Arith.DivSubDivisor(n - 1, d);
    var k := (n - d - 1) / d;
    assert FullLoads(n, d) == k + 1;
    assert 4 * d * (k + 1) == 4 * d + 4 * d * k;
  }

  /** A full FIFO load contributes one full-load segment. */
  lemma SegmentsFullLoad(cfg: Config, ws: seq<bv32>)
    requires cfg.Valid() && |ws| > cfg.txDepth
    ensures TxBytes(Segments(cfg, ws, cfg.txDepth))
         == 4 * cfg.txDepth + TxBytes(Segments(cfg, ws[cfg.txDepth..], cfg.txDepth))
  {
    var d := cfg.txDepth;
    var head := PushAll(ws[..d]);
    TxBytesConcat(head + [FullSegment(cfg)], Segments(cfg, ws[d..], d));
    TxBytesConcat(head, [FullSegment(cfg)]);
    assert [FullSegment(cfg)][1..] == [];
  }

  /** `last_words`: the byte count of the final segment, the remainder of
      the length modulo a full FIFO load, or a full load when that is zero. */
  function LastWords(cfg: Config, length: u16): (n: nat)
    requires cfg.Valid()
    ensures 1 <= n <= 4 * cfg.txDepth
  {
    var block := 4 * cfg.txDepth;
    var rem := length - (length / block) * block;
    if rem == 0 then block else rem
  }

  /** `last_words` is the remainder of the length modulo a full FIFO load in
      bytes, or a full load when that remainder is 0; either way it agrees
      with the length modulo a full load. */
  lemma LastWordsValue(cfg: Config, length: u16)
    requires cfg.Valid()
    ensures var block := 4 * cfg.txDepth;
      && LastWords(cfg, length) == (if length % block == 0 then block else length % block)
      && LastWords(cfg, length) % block == length % block
  {
    var block := 4 * cfg.txDepth;
    var q := length / block;
    var rem := length - q * block;
    assert rem == length % block;
    if rem == 0 {
      Arith.DivModUnique(block, block, 1, 0);
    } else {
      Arith.DivModUnique(rem, block, 0, rem);
    }
  }

  /** The tail word: the last `length % 4` bytes of the buffer in the low
      bytes of a zeroed word. */
  function TailWord(data: seq<bv32>, length: u16): (r: bv32)
    requires WordsFor(length) <= |data| && length % 4 != 0
    ensures forall k :: 0 <= k < 4 ==>
      ByteOf(r, k) == (if k < length % 4 then ByteAt(data, length - length % 4 + k) else 0)
  {
    CopyLowBytes(0, data[length / 4], length % 4)
  }

  /** The tail word as line 283 writes it: `data` is a word pointer, so the
      byte offset `length - length % 4` is used as a word index; `None` when
      that word lies outside the buffer. */
  function TailWordAsWritten(data: seq<bv32>, length: u16): (r: Option<bv32>)
    requires length % 4 != 0
    ensures r.Some? <==> length - length % 4 < |data|
    ensures r.Some? ==> forall k :: 0 <= k < 4 ==>
      ByteOf(r.value, k) == (if k < length % 4 then ByteOf(data[length - length % 4], k) else 0)
  {
    var index := length - length % 4;
    if index < |data| then Some(CopyLowBytes(0, data[index], length % 4)) else None
  }

  /** The word line 283 reads is the tail's word only for lengths below 4;
      from 4 bytes on it lies beyond every word the transfer covers. */
  lemma TailWordIndexDiverges(length: u16)
    requires length % 4 != 0
    ensures (length - length % 4 == length / 4) <==> length < 4
    ensures length >= 4 ==> length - length % 4 >= WordsFor(length)
  {
  }

  /** A 5-byte transfer from a 2-word buffer: the intended tail is the
      buffer's fifth byte, the indexing as written reads past the buffer. */
  lemma TailWordAsWrittenExample()
    ensures TailWord([0x0302_0100, 0x0000_0004], 5) == 0x04
    ensures TailWordAsWritten([0x0302_0100, 0x0000_0004], 5) == None
  {
    var t := TailWord([0x0302_0100, 0x0000_0004], 5);
    assert ByteOf(t, 0) == 0x04;
    assert ByteOf(t, 1) == 0 && ByteOf(t, 2) == 0 && ByteOf(t, 3) == 0;
    WordFromBytes(t, 0x04);
  }

  /** The words the transfer carries, in host order: `length >> 2` whole
      words and, when the length is not a multiple of 4, the tail word. */
  function TxWords(data: seq<bv32>, length: u16): (ws: seq<bv32>)
    requires WordsFor(length) <= |data|
    ensures |ws| == WordsFor(length)
    ensures forall i :: 0 <= i < length / 4 ==> ws[i] == data[i]
    ensures length % 4 != 0 ==> ws[length / 4] == TailWord(data, length)
  {
    data[..length / 4] + (if length % 4 != 0 then [TailWord(data, length)] else [])
  }

  /** The address preamble: wrap length, write op-code (pushed as a whole
      word), held one-byte segment, big-endian address. */
  function WritePreamble(addr: bv32, length: u16): (t: Trace)
    ensures Pushed(t) == [WriteOp as bv32, Swap(addr)]
    ensures HoldsChipSelect(t)
  {
    var wrap := WrapLength(length);
    var op := [PushWord(WriteOp as bv32), ByteCmd];
    var address := WordBigEndian(addr);
    PushedConcat(wrap, op);
    PushedConcat(wrap + op, address);
    PushedNone(wrap);
    PushedPair(op[0], op[1]);
    PushedPair(address[0], address[1]);
    wrap + op + address
  }

  /** Before the write op-code the slave's wrap-length registers hold the
      transfer's length in words. */
  lemma WriteProgramsSlave(regs: SlaveRegs, addr: bv32, length: u16)
    ensures var t := WritePreamble(addr, length);
      && var r := Apply(regs, t[..8]);
      && r.Some?
      && r.value.WrapWords() == length / 4
      && t[8] == PushWord(WriteOp as bv32)
  {
    var t := WritePreamble(addr, length);
    assert t[..8] == WrapLength(length);
    WrapLengthProgramsSlave(regs, length);
  }

  lemma {:induction false} SwapAllConcat(a: seq<bv32>, b: seq<bv32>)
    ensures SwapAll(a + b) == SwapAll(a) + SwapAll(b)
    decreases |a|
  {
    if |a| == 0 {
      assert a + b == b;
    } else {
      assert (a + b)[0] == a[0];
      assert (a + b)[1..] == a[1..] + b;
      SwapAllConcat(a[1..], b);
    }
  }

  /** The payload as the program sends it: the counter loop over the whole
      words, the tail word pushed after the loop without a look at the
      counter, then the final segment of `last_words` bytes. */
  function WritePayload(cfg: Config, data: seq<bv32>, length: u16): (t: Trace)
    requires cfg.Valid() && WordsFor(length) <= |data|
    ensures Pushed(t) == SwapAll(TxWords(data, length))
    ensures |t| >= 1 && t[|t| - 1] == Cmd(LastWords(cfg, length) - 1, false, TxOnly)
    ensures HoldsChipSelect(t[..|t| - 1])
  {
    var words := data[..length / 4];
    var tailWords := if length % 4 != 0 then [TailWord(data, length)] else [];
    var loop := TxLoop(cfg, words, 0).trace;
    var tail := PushAll(tailWords);
    var last := [Cmd(LastWords(cfg, length) - 1, false, TxOnly)];
    var t := loop + tail + last;
    TxLoopPushes(cfg, words, 0);
    PushedConcat(loop, tail);
    PushedConcat(loop + tail, last);
    PushedSingle(last[0]);
    assert TxWords(data, length) == words + tailWords;
    SwapAllConcat(words, tailWords);
    HeldUntilLast(cfg, loop, tail, last[0]);
    t
  }

  /** The loop, then pushes only, then a final segment: chip select is held
      by every segment except that last one. */
  lemma HeldUntilLast(cfg: Config, loop: Trace, tail: Trace, e: Event)
    requires cfg.Valid() && LoopEvents(cfg, loop)
    requires forall x :: x in tail ==> x.PushWord?
    ensures var t := loop + tail + [e];
      t[|t| - 1] == e && HoldsChipSelect(t[..|t| - 1])
  {
    var t := loop + tail + [e];
    assert t[..|t| - 1] == loop + tail;
  }

  /** The payload with the tail word treated like every other word (a full
      FIFO load is sent before it is pushed) and no segment at all for an
      empty transfer. */
  function WritePayloadCorrected(cfg: Config, data: seq<bv32>, length: u16): (t: Trace)
    requires cfg.Valid() && WordsFor(length) <= |data|
    ensures Pushed(t) == SwapAll(TxWords(data, length))
    ensures length == 0 <==> t == []
    ensures length > 0 ==> t[|t| - 1] == Cmd(LastWords(cfg, length) - 1, false, TxOnly)
    ensures |t| >= 1 ==> HoldsChipSelect(t[..|t| - 1])
  {
    if length == 0 then []
    else
      var loop := TxLoop(cfg, TxWords(data, length), 0).trace;
      var last := [Cmd(LastWords(cfg, length) - 1, false, TxOnly)];
      TxLoopPushes(cfg, TxWords(data, length), 0);
      PushedConcat(loop, last);
      assert Pushed(last) == [];
      HeldUntilLast(cfg, loop, [], last[0]);
      assert loop + [] + last == loop + last;
      loop + last
  }

  /** spi_host_write. The size check can never fire for a 16-bit length, so
      the transfer always goes ahead: after the preamble the TX FIFO receives
      the write op-code, the swapped address and the swapped payload words,
      and only the final segment releases chip select. */
  function SpiHostWrite(cfg: Config, addr: bv32, data: seq<bv32>, length: u16): (r: Result<Trace>)
    requires cfg.Valid() && WordsFor(length) <= |data|
    ensures r.Ok?
    ensures Pushed(r.value) == [WriteOp as bv32, Swap(addr)] + SwapAll(TxWords(data, length))
    ensures |r.value| >= 1 && r.value[|r.value| - 1] == Cmd(LastWords(cfg, length) - 1, false, TxOnly)
    ensures HoldsChipSelect(r.value[..|r.value| - 1])
    ensures |WritePreamble(addr, length)| <= |r.value|
    ensures r.value[..|WritePreamble(addr, length)|] == WritePreamble(addr, length)
  {
    if DivRoundUp(length, WordSizeInBytes) > MaxDataSize then Err(SizeOfDataExceeded)
    else
      var pre := WritePreamble(addr, length);
      var payload := WritePayload(cfg, data, length);
      PushedConcat(pre, payload);
      HoldsChipSelectConcat(pre, payload);
      assert (pre + payload)[..|pre|] == pre;
      Ok(pre + payload)
  }

  /** The program's write opens by programming the slave: after its first
      eight events the wrap-length registers hold the transfer's length in
      words, and the ninth event pushes the write op-code. */
  lemma WriteRequestProgramsSlave(cfg: Config, regs: SlaveRegs, addr: bv32, data: seq<bv32>, length: u16)
    requires cfg.Valid() && WordsFor(length) <= |data|
    ensures var t := SpiHostWrite(cfg, addr, data, length).value;
      && |t| > 8
      && var r := Apply(regs, t[..8]);
      && r.Some?
      && r.value.WrapWords() == length / 4
      && t[8] == PushWord(WriteOp as bv32)
  {
    var t := SpiHostWrite(cfg, addr, data, length).value;
    var pre := WritePreamble(addr, length);
    WriteProgramsSlave(regs, addr, length);
    assert |pre| == 12;
    PrefixAgrees(t, pre, 8);
  }

  /** A trace that opens with `pre` agrees with it below any index of `pre`. */
  lemma PrefixAgrees(t: Trace, pre: Trace, n: nat)
    requires n < |pre| <= |t| && t[..|pre|] == pre
    ensures t[..n] == pre[..n] && t[n] == pre[n]
  {
    assert t[n] == t[..|pre|][n];
  }

  /** A preamble that holds chip select, followed by a trace that holds it up
      to its last command, holds it up to that same last command. */
  lemma HoldsChipSelectConcat(pre: Trace, t: Trace)
    requires |t| >= 1 && HoldsChipSelect(pre) && HoldsChipSelect(t[..|t| - 1])
    ensures (pre + t)[|pre + t| - 1] == t[|t| - 1]
    ensures HoldsChipSelect((pre + t)[..|pre + t| - 1])
  {
    assert (pre + t)[..|pre + t| - 1] == pre + t[..|t| - 1];
  }

  /** spi_host_write with the corrected payload. */
  function SpiHostWriteCorrected(cfg: Config, addr: bv32, data: seq<bv32>, length: u16): (r: Result<Trace>)
    requires cfg.Valid() && WordsFor(length) <= |data|
    ensures r.Ok?
    ensures Pushed(r.value) == [WriteOp as bv32, Swap(addr)] + SwapAll(TxWords(data, length))
  {
    if DivRoundUp(length, WordSizeInBytes) > MaxDataSize then Err(SizeOfDataExceeded)
    else
      var pre := WritePreamble(addr, length);
      var payload := WritePayloadCorrected(cfg, data, length);
      PushedConcat(pre, payload);
      Ok(pre + payload)
  }

  /** The length split into full FIFO loads and a remainder, in words and
      bytes. */
  lemma BlockSplit(length: nat, d: nat)
    requires d >= 1
    ensures var q, s := length / (4 * d), length % (4 * d);
      && length == 4 * d * q + s
      && length / 4 == d * q + s / 4
      && length % 4 == s % 4
      && s / 4 < d
  {
    var q, s := length / (4 * d), length % (4 * d);
    assert length == 4 * d * q + s;
    assert s == 4 * (s / 4) + s % 4;
    assert length == 4 * (d * q + s / 4) + s % 4;
    Arith.DivModUnique(length, 4, d * q + s / 4, s % 4);
  }

  /** The arithmetic of the payload segments as written. */
  lemma AsWrittenSegmentArith(length: nat, d: nat, lastWords: nat)
    requires d >= 1
    requires lastWords == if length % (4 * d) == 0 then 4 * d else length % (4 * d)
    ensures 4 * d * FullLoads(length / 4, d) + lastWords
         == if length == 0 then 4 * d
            else if length >= 4 * d && 1 <= length % (4 * d) <= 3 then length - 4 * d
            else length
  {
    BlockSplit(length, d);
    var q, s := length / (4 * d), length % (4 * d);
    AsWrittenSegmentCases(length, d, q, s, d * q, lastWords);
  }

  lemma AsWrittenSegmentCases(length: nat, d: nat, q: nat, s: nat, p: nat, lastWords: nat)
    requires d >= 1 && p == d * q && 0 <= s < 4 * d
    requires length == 4 * p + s && length / 4 == p + s / 4 && s / 4 < d
    requires lastWords == if s == 0 then 4 * d else s
    ensures 4 * d * FullLoads(length / 4, d) + lastWords
         == if length == 0 then 4 * d
            else if length >= 4 * d && 1 <= s <= 3 then length - 4 * d
            else length
  {
    if s / 4 >= 1 {
      AsWrittenPartialLoad(length, d, q, s, p);
    } else if q >= 1 {
      AsWrittenShortTail(length, d, q, s, p);
    } else {
      assert p == 0 && length / 4 == 0;
    }
  }

  /** A last FIFO load with at least one whole word: it is not counted as
      full, so the full loads are the `q` completed blocks. */
  lemma AsWrittenPartialLoad(length: nat, d: nat, q: nat, s: nat, p: nat)
    requires d >= 1 && p == d * q && 4 <= s < 4 * d
    requires length == 4 * p + s && length / 4 == p + s / 4 && s / 4 < d
    ensures 4 * d * FullLoads(length / 4, d) == 4 * p
  {
    Arith.DivModUnique(length / 4 - 1, d, q, s / 4 - 1);
    assert 4 * d * q == 4 * p;
  }

  /** No whole word after `q >= 1` completed blocks: the last block is the
      last load, so one fewer full load is counted. */
  lemma AsWrittenShortTail(length: nat, d: nat, q: nat, s: nat, p: nat)
    requires d >= 1 && q >= 1 && p == d * q && 0 <= s < 4
    requires length == 4 * p + s && length / 4 == p
    ensures 4 * d * FullLoads(length / 4, d) == 4 * p - 4 * d
  {
    Arith.DivModUnique(length / 4 - 1, d, q - 1, d - 1);
    MulPred(d, q);
    Arith.MulAtLeast(d, q);
    assert 4 * d * (q - 1) == 4 * p - 4 * d;
  }

  lemma MulPred(a: int, q: int)
    ensures a * (q - 1) == a * q - a
  {
  }

  /** The arithmetic of the corrected payload segments. */
  lemma CorrectedSegmentArith(length: nat, d: nat, lastWords: nat)
    requires d >= 1 && length >= 1
    requires lastWords == if length % (4 * d) == 0 then 4 * d else length % (4 * d)
    ensures 4 * d * FullLoads(WordsFor(length), d) + lastWords == length
  {
    BlockSplit(length, d);
    var q, s := length / (4 * d), length % (4 * d);
    var n := WordsFor(length);
    if s == 0 {
      assert q >= 1 && n == d * q;
      Arith.DivModUnique(n - 1, d, q - 1, d - 1);
      assert FullLoads(n, d) == q - 1;
      MulPred(4 * d, q);
    } else {
      var c := s / 4 + (if s % 4 == 0 then 0 else 1);
      assert 1 <= c <= d;
      assert n == d * q + c;
      Arith.DivModUnique(n - 1, d, q, c - 1);
      assert FullLoads(n, d) == q;
    }
  }

  /** Bytes the payload segments declare, as written: the length itself,
      except that an empty transfer declares one full load, and a length of at
      least one full load whose remainder modulo a full load is 1, 2 or 3
      declares one full load too few (the tail word is pushed after the loop
      without the full-load check, so its load is never sent). */
  lemma WriteSegmentBytes(cfg: Config, data: seq<bv32>, length: u16)
    requires cfg.Valid() && WordsFor(length) <= |data|
    ensures var block := 4 * cfg.txDepth;
      TxBytes(WritePayload(cfg, data, length))
        == if length == 0 then block
           else if length >= block && 1 <= length % block <= 3 then length - block
           else length
  {
    PayloadTxBytes(cfg, data, length);
    LastWordsValue(cfg, length);
    AsWrittenSegmentArith(length, cfg.txDepth, LastWords(cfg, length));
  }

  /** The loop from an empty FIFO declares one full load per `txDepth` words
      except the last load. */
  lemma LoopTxBytes(cfg: Config, ws: seq<bv32>)
    requires cfg.Valid()
    ensures TxBytes(TxLoop(cfg, ws, 0).trace) == 4 * cfg.txDepth * FullLoads(|ws|, cfg.txDepth)
  {
    TxLoopFollowsSegments(cfg, ws, 0);
    SegmentsTxBytes(cfg, ws);
  }

  lemma PayloadTxBytes(cfg: Config, data: seq<bv32>, length: u16)
    requires cfg.Valid() && WordsFor(length) <= |data|
    ensures TxBytes(WritePayload(cfg, data, length))
         == 4 * cfg.txDepth * FullLoads(length / 4, cfg.txDepth) + LastWords(cfg, length)
  {
    var words := data[..length / 4];
    var tailWords := if length % 4 != 0 then [TailWord(data, length)] else [];
    var loop := TxLoop(cfg, words, 0).trace;
    var tail := PushAll(tailWords);
    var last := [Cmd(LastWords(cfg, length) - 1, false, TxOnly)];
    assert WritePayload(cfg, data, length) == loop + tail + last;
    TxBytesConcat(loop, tail);
    TxBytesConcat(loop + tail, last);
    TxBytesSingle(last[0]);
    LoopTxBytes(cfg, words);
  }

  lemma TxBytesSingle(e: Event)
    ensures TxBytes([e]) == if e.Cmd? && e.dir == TxOnly then e.len + 1 else 0
  {
    assert [e][1..] == [];
  }

  /** With the configuration of one-word TX FIFO, a 5-byte write declares a
      single byte in its segments. */
  lemma WriteSegmentBytesExample(data: seq<bv32>)
    requires |data| >= 2
    ensures TxBytes(WritePayload(Config(1, 4), data, 5)) == 1
  {
    WriteSegmentBytes(Config(1, 4), data, 5);
  }

  /** The corrected payload segments declare exactly the transfer length. */
  lemma WriteCorrectedSegmentBytes(cfg: Config, data: seq<bv32>, length: u16)
    requires cfg.Valid() && WordsFor(length) <= |data|
    ensures TxBytes(WritePayloadCorrected(cfg, data, length)) == length
  {
    if length > 0 {
      var words := TxWords(data, length);
      var loop := TxLoop(cfg, words, 0).trace;
      var last := [Cmd(LastWords(cfg, length) - 1, false, TxOnly)];
      assert WritePayloadCorrected(cfg, data, length) == loop + last;
      TxBytesConcat(loop, last);
      TxBytesSingle(last[0]);
      LoopTxBytes(cfg, words);
      LastWordsValue(cfg, length);
      CorrectedSegmentArith(length, cfg.txDepth, LastWords(cfg, length));
    }
  }
}
